=== FILE: README.md ===
# Mixpanel's on-disk event queue, modelled in Dafny

This project models the persistence core of the Mixpanel Swift SDK:

- `MPDB` is a storage engine on one process-wide SQLite connection. It keeps one table per project token and category: `mixpanel_<token>_<category>`, with an `id` that autoincrements, a `data` blob and a `time` real.
- `MixpanelPersistence` is the queue manager above it. It saves records as JSON payloads, loads them in batches with the oldest first, and removes batches.

The model is a pure state machine. A `Store` holds two things: what the static `connection` pointer holds, and the tables of the database file. Every operation is a function from a store, plus the inputs the environment decides, to a new store. Those inputs are:

- what `sqlite3_open_v2` does;
- whether a statement fails;
- where the `sqlite3_step` loop of a read stops;
- the clock reading.

How the model reads the code:

- **The closed handle stays.** `close()` never clears `connection`. A closed handle therefore stays stored: it is `Stale`.
  - On a `Stale` handle every statement fails. The C API leaves that behaviour undefined; the model takes the failing path.
  - Create, insert and delete then fall back on `recreateDb`. Reads return nothing.
- **`recreateDb` does not re-create tables.** It closes, deletes the file and reopens. Every table of every token is gone, and none is created again.
  - So the next insert or delete finds no table, and the tables stay empty (`MpdbLemmas.WritesAfterRecreateAreLost`). On a live or closed handle it fails to prepare and wipes the file again; after a reopen that got no handle it only opens.
  - Only a later `createTable` makes writes stick (`MpdbLemmas.RecoveryNeedsCreateTable`).
- **`open()` does not create tables.** Only `createTable` does.
- **Table names ignore case.** The table name is written unquoted into the SQL text, and SQLite matches unquoted identifiers ignoring ASCII case. A table is therefore identified by its category and its token folded to lower case (`Mpdb.TableId`, `Identifiers.Fold`).
  - For tokens that are valid parts of an unquoted identifier, two names denote one table exactly when category and folded token agree (`Mpdb.TableOfMatchesNames`).
  - Tokens that differ only in ASCII case share a table (`MpdbLemmas.CaseVariantTokensShareTable`).
- **Ids are never reused.** `AUTOINCREMENT` issues one above the largest id the table has ever issued, even after the rows holding it are deleted (`Rows.DeletedIdsNotReissued`).
- **Failures and limits:**
  - A missing table makes the statement fail to prepare, like any other failure.
  - The model assumes that empty `data` yields no buffer base address, so that nothing is prepared and nothing happens. Whether it does depends on Foundation (see `Mpdb.InsertRow` under Left out).
  - SQLite reads a negative `LIMIT` as no limit (`Rows.LimitCount`).
  - A zero-length blob comes back from `sqlite3_column_blob` as NULL, so the read skips it.
  - A step failure in the middle of a read ends the loop. The rows read so far are returned.
- **Which rows a read or delete picks.** `ORDER BY time LIMIT n` picks the earliest rows by time. The model states this as a reference predicate, `Rows.IsEarliest`, that holds for any tie-break.
  - The outer `SELECT` returns the picked rows in table (rowid) order.
  - First-in-first-out is proved for tables whose times strictly increase. That is what a clock that always advances produces, and SQLite leaves the order of equal times unspecified.
- **The token is never passed down.** `saveEntity`, `loadEntitiesInBatch` and `removeEventsInBatch` take a `token` but call `MPDB` without it (`Sources/MixpanelPersistence.swift:33`, `:51`, `:61`). As written, those calls do not match the `MPDB` signatures, which require `token:`. The model passes the caller's token through.
- **Empty operations.** `saveEntities` and `resetEvents` have empty bodies and change nothing. `batchSize` defaults to 50.
- **Decoding.** `JSONHandler` is a parameter, `Persistence.Codec`: two partial functions. A payload that does not decode to a record is dropped.

Files:

- `wrappers.dfy`: `Option`.
- `identifiers.dfy`: how SQLite compares unquoted identifiers.
- `categories.dfy`: `PersistenceType`.
- `rows.dfy`: rows, tables, and the earliest-rows selection with its reference meaning.
- `mpdb.dfy`: the storage engine.
- `mpdb_lemmas.dfy`: properties relating the engine's operations.
- `runs.dfy`: invariants along any sequence of calls.
- `persistence.dfy`: the queue manager.

## Model

| member | source | states |
|---|---|---|
| Categories.CaseNameInjective | Sources/MixpanelPersistence.swift:11-17 | distinct categories have case names that differ even ignoring case, and none contains `_`, so each category has its own table name |
| Mpdb.TableNameFor | Sources/MPDB.swift:33-35 | the table name is `mixpanel_`, then the token unchanged, then `_`, then the category's case name |
| Mpdb.TableOfMatchesNames | Sources/MPDB.swift:33-35 | two table names are equal ignoring ASCII case iff they name the same category and tokens equal ignoring ASCII case, for any characters in the tokens |
| Mpdb.Open | Sources/MPDB.swift:37-47 | tables untouched; the pointer is live iff the file opened, and empty iff SQLite could not allocate a handle (a failed open leaves a closed handle) |
| Mpdb.Close | Sources/MPDB.swift:49-52 | tables untouched; afterwards no live handle is stored, and the pointer is empty iff it was empty before |
| Mpdb.RecreateDb | Sources/MPDB.swift:54-69 | every table of every token is gone; the connection is live iff the reopen succeeded |
| Mpdb.CreateTable | Sources/MPDB.swift:71-92 | no connection: only an open; cannot run: the database is wiped; otherwise the table exists, an existing table leaves the store unchanged, a new one is empty, and other tables are kept |
| Mpdb.InsertRow | Sources/MPDB.swift:94-121 | no connection: only an open; empty data: no change; failure or missing table: the database is wiped; success: one row is appended holding the payload, the time and the id one above the last id the table issued, which becomes its new last id; the old rows stay in front, and other tables are kept |
| Mpdb.DeleteRows | Sources/MPDB.swift:123-144 | no connection: only an open; failure or missing table: the database is wiped; success: the table loses exactly LIMIT n of its rows, none later than a row that stays, the id counter is kept, and other tables are kept |
| Mpdb.ReadRows | Sources/MPDB.swift:146-174 | a read never changes the tables or wipes the database; with no connection it opens and returns nothing; a closed handle, a failed prepare or a missing table give an empty result |
| Mpdb.Stepped | Sources/MPDB.swift:154-163 | the step loop visits a prefix of the selected rows: all of them when no step fails or when stepping would fail only after the last one, exactly k of them when stepping fails after k earlier rows |
| Mpdb.ReadAtMost | Sources/MPDB.swift:146-174 | a read with a non-negative numRows returns at most numRows payloads |
| Mpdb.ReadFromEarliest | Sources/MPDB.swift:150-158 | every payload read is the payload of one of the earliest rows that `ORDER BY time LIMIT n` picks |
| Rows.Append | Sources/MPDB.swift:74-104 | the inserted row goes at the end with the payload, the time and the id one above the last id issued (so not used before), which becomes the last id; the earlier rows are kept |
| Rows.DeletedIdsNotReissued | Sources/MPDB.swift:74-126 | after a delete, the next insert's id is larger than the id of every row the table held before the delete, deleted rows included |
| Rows.LimitCount | Sources/MPDB.swift:126 | SQLite's LIMIT: at most the table size; a negative limit takes every row |
| Rows.Earliest | Sources/MPDB.swift:126 | the chosen ids meet the reference meaning of "the k earliest": the right number, drawn from the table, and none later than a row left out |
| Rows.EarliestUnique | Sources/MPDB.swift:126 | when all times differ, two choices of the k earliest rows are the same set |
| Rows.EarliestOfIncreasing | Sources/MPDB.swift:126 | when times increase along the table, the k earliest rows are exactly its first k rows |
| Rows.SelectEarliest | Sources/MPDB.swift:150 | the select picks exactly LIMIT n rows of the table, in id order, none later than a row left out |
| Rows.DeleteEarliest | Sources/MPDB.swift:126 | the delete leaves a sub-multiset of the table, exactly LIMIT n rows shorter, and none of the removed rows is later than a row that stays; the id counter is unchanged |
| Rows.SplitPartition | Sources/MPDB.swift:126 | the rows with and without an id in the set together hold every row of the table exactly once |
| Rows.WithoutKeepsIds | Sources/MPDB.swift:126 | the rows a delete leaves keep increasing, bounded ids, so they still form a table |
| Rows.WithinSize | Sources/MPDB.swift:150 | with distinct ids, `WHERE id IN (ids)` selects one row for each id of the table in the set |
| Rows.FilterOfPrefix | Sources/MPDB.swift:126 | when the id set marks exactly the first k rows, select gives the first k and delete leaves the rest |
| Rows.WithinKeepsOrder | Sources/MPDB.swift:150 | the selected rows keep id order |
| Rows.SelectThenDelete | Sources/MPDB.swift:126 | the rows the delete removes are, as a multiset, exactly the rows the select with the same limit picks |
| Rows.SelectDeleteOrdered | Sources/MPDB.swift:126 | when times increase, the select is the first LIMIT n rows and the delete leaves the remaining rows in order |
| Rows.IncreasingBatch | Sources/MPDB.swift:150-158 | when times increase and every row has a payload, the batch read is the payloads of the first LIMIT n rows in order |
| Rows.Blobs | Sources/MPDB.swift:155-162 | a read returns only non-empty payloads, each the payload of one of the rows, and drops none when every row has a payload |
| Rows.BlobsAllPresent | Sources/MPDB.swift:155-162 | when every row has a payload, the read yields the payloads of all the rows in order |
| Rows.BlobsAppend | Sources/MPDB.swift:154-163 | reading two runs of rows yields the first run's payloads followed by the second's |
| Rows.AppendKeepsIncreasing | Sources/MPDB.swift:103 | a clock that has moved past every stored time keeps times increasing after an insert |
| Rows.DeleteKeepsIncreasing | Sources/MPDB.swift:126 | a delete keeps times increasing and bounded by the clock |
| Rows.AppendKeepsPayload | Sources/MPDB.swift:99-102 | inserting a non-empty payload keeps every row's payload non-empty |
| Rows.DeleteKeepsPayload | Sources/MPDB.swift:126 | every row a delete leaves keeps its payload |
| MpdbLemmas.CategoryIsolation | Sources/MPDB.swift:71-144 | a successful create, insert or delete on one (category, token) leaves the table of every (category, token) that differs in category or in its token ignoring ASCII case exactly as it was, present or absent |
| MpdbLemmas.CaseVariantTokensShareTable | Sources/MPDB.swift:71-174 | tokens equal ignoring ASCII case reach one table: create is a no-op for the second, and insert and read give the same results under either token |
| MpdbLemmas.CreateTableFresh | Sources/MPDB.swift:71-78 | a new table starts empty and every table of another category or of a token that differs ignoring case is kept |
| MpdbLemmas.CreateTableIdempotent | Sources/MPDB.swift:71-92 | from a live connection, or when the statement fails on a stored handle, a second identical createTable changes nothing |
| MpdbLemmas.WritesAfterRecreateAreLost | Sources/MPDB.swift:54-69 | after recreateDb every insert and delete leaves the tables empty (a failed prepare wipes the file again, a missing handle only opens, an empty payload does nothing), and reads return nothing |
| MpdbLemmas.RecoveryNeedsCreateTable | Sources/MPDB.swift:54-121 | after a successful recreateDb and a createTable, an insert leaves just that table, holding one row with the payload and time |
| MpdbLemmas.WritesAfterCloseWipe | Sources/MPDB.swift:49-52 | after close() of a stored handle (not an empty pointer), every create, insert of a non-empty payload and delete wipes the database, and reads return nothing |
| MpdbLemmas.ReadThenDelete | Sources/MPDB.swift:123-174 | a read and a delete with the same numRows agree: the payloads read are those of exactly the rows the delete removes |
| MpdbLemmas.FifoOnIncreasingTable | Sources/MPDB.swift:123-174 | first in, first out: on a table in time order whose rows all hold payloads, a read returns the first LIMIT n payloads in order and a delete leaves exactly the rows after them |
| MpdbLemmas.DeleteAllEmpties | Sources/MPDB.swift:126 | a delete with a negative limit, or one at least the table size, empties the table |
| MpdbLemmas.InsertKeepsIncreasing | Sources/MPDB.swift:94-121 | with a clock that moves forward, an insert keeps the table's times increasing |
| Runs.StepClearsOnlyOnNoMemory | Sources/MPDB.swift:37-52 | a call leaves the pointer empty only when open() cannot allocate a handle, or when close() finds it empty already |
| Runs.ConnectionStaysSet | Sources/MPDB.swift:49-52 | once the pointer is set, no run of calls clears it unless an open() runs out of memory |
| Runs.RunKeepsPayloads | Sources/MPDB.swift:94-144 | along any run, every stored row keeps a non-empty payload |
| Runs.RunKeepsIncreasing | Sources/MPDB.swift:94-144 | along any run with an advancing clock, every table stays in time order with no time later than the clock |
| Runs.FifoAfterRun | Sources/MPDB.swift:123-174 | after any run with an advancing clock, from a store whose rows hold payloads in time order (an empty store, for one), a read returns the oldest payloads in insertion order and a delete of the same size removes exactly those rows |
| Persistence.SaveEntity | Sources/MixpanelPersistence.swift:31-35 | nothing happens when serialization fails; otherwise it is an insert of the serialized payload, which on success adds exactly one row at the end holding that payload and the time |
| Persistence.SaveEntities | Sources/MixpanelPersistence.swift:37-39 | saveEntities has no effect |
| Persistence.ResetEvents | Sources/MixpanelPersistence.swift:64-66 | resetEvents has no effect |
| Persistence.DeserializeAll | Sources/MixpanelPersistence.swift:52-56 | no more records than payloads, each record decoded from one of the payloads |
| Persistence.DeserializeAllAppend | Sources/MixpanelPersistence.swift:52-56 | decoding works payload by payload, so records keep the order of their payloads |
| Persistence.DeserializeAllDecodable | Sources/MixpanelPersistence.swift:52-56 | when every payload decodes, nothing is dropped and the i-th record decodes the i-th payload |
| Persistence.DropsOnlyMalformed | Sources/MixpanelPersistence.swift:53 | a malformed payload among well-formed ones costs its own record and nothing else |
| Persistence.LoadEntitiesInBatch | Sources/MixpanelPersistence.swift:49-58 | loading never changes the tables, returns at most batchSize records, and returns the decodings of the payloads the read returns |
| Persistence.LoadEntity | Sources/MixpanelPersistence.swift:41-47 | no record iff a batch of one is empty; otherwise that batch's only record |
| Persistence.RemoveEventsInBatch | Sources/MixpanelPersistence.swift:60-62 | removing a batch has exactly the effect of deleting batchSize rows of the same category: on success the table loses LIMIT batchSize of its rows and the other tables are kept |
| Persistence.DefaultBatchIsFifty | Sources/MixpanelPersistence.swift:49-62 | without a batch size, a load returns at most 50 records and a remove deletes min(50, table size) rows |
| Persistence.LoadThenRemove | Sources/MixpanelPersistence.swift:49-62 | on a table in time order whose rows all hold payloads, the records loaded decode the payloads of exactly the rows a remove with the same batch size deletes, oldest first, and the later rows stay |
| Persistence.LoadEntityPeeksEarliest | Sources/MixpanelPersistence.swift:41-47 | on any table, loadEntity gives the decoding of the payload of the one row `ORDER BY time LIMIT 1` picks; nothing when the table is empty, that row has no blob, or the select stops before its first row |
| Persistence.LoadEntityIsOldest | Sources/MixpanelPersistence.swift:41-47 | on a table in time order whose rows all hold payloads, loadEntity decodes the first row's payload only, so a malformed oldest payload gives nothing even when later ones decode |
| Persistence.DrainInOrder | Sources/MixpanelPersistence.swift:31-62 | three records saved in order with an advancing clock: a batch of two loads the first two, removing two leaves the third, and the next batch loads just the third |

## Left out

- `pathToDb` and `FileManager`: the path is assumed to resolve, and removing the file is assumed to succeed. Neither can be decided without the file system.
- The SQLite C API itself: preparing, binding, stepping and finalizing are not modelled. Their outcomes are inputs: a failure flag, the open outcome, and where the step loop stops.
- `logError` and `Logger`: logging has no effect on the store.
- `Date().timeIntervalSince1970`: the clock is an input `now`, and times are exact reals rather than doubles.
- `JSONHandler`: a parameter of two partial functions. Decoding to something other than a record is the same as failing to decode.
- `sharedInstance` and the singleton: a single store value is threaded through calls instead.
- Concurrency: the source has no locking, and the model runs calls one at a time.
- The order SQLite gives rows with equal times: the model picks them with one fixed tie-break, `Rows.Earliest`. `Rows.IsEarliest` states what every tie-break satisfies, and `Mpdb.ReadFromEarliest`, `Rows.SelectEarliest` and `Rows.DeleteEarliest` are stated against it.
- The order of the outer `SELECT` of `readRows`: SQL leaves it open. The model returns the picked rows in rowid order, the order in which SQLite scans them. `Mpdb.ReadFromEarliest`, `Mpdb.ReadAtMost` and `Persistence.LoadEntityPeeksEarliest` do not depend on that order.
- MpdbLemmas.ReadThenDelete: relies on the read and a later delete breaking ties among equal times the same way, because both use the model's one tie-break. SQL does not promise that for two statements. Its equality of payload sequences also relies on the rowid order of the outer `SELECT`.
- Mpdb.InsertRow: does not model the payload size limits. `Int32(rawBuffer.count)` traps for payloads longer than `Int32.max` bytes. A payload longer than SQLite's length limit (10^9 bytes by default) makes `sqlite3_bind_blob` return `SQLITE_TOOBIG`; the result is not checked, so the row is stored with a NULL `data`, and reads skip it. The model stores every non-empty payload.
- Mpdb.InsertRow: assumes that `withUnsafeBytes` of an empty `Data` gives a nil `baseAddress`, so an empty payload inserts nothing. Foundation does not promise this: an empty buffer may have a non-nil address. In that case the `INSERT` runs and appends a row with a zero-length blob. Reads skip that row, but it still counts toward `LIMIT n` in reads and deletes. The invariant `Runs.RunKeepsPayloads`, and `Runs.FifoAfterRun` which uses it, depend on this assumption.
- Rows.Append: ids are unbounded. SQLite fails an insert with `SQLITE_FULL` once the largest 64-bit id is used; the model never exhausts ids.
- Tokens that cannot be part of an unquoted SQL identifier (a space, a `-`, a quote): the token is pasted into the SQL text unescaped, and the model does not parse SQL. Such a statement may fail to prepare, which the model covers through its failure inputs. It may also prepare with another meaning, which the model does not capture. For example, with the token `x_events y` the `CREATE`, `INSERT` and `DELETE` are syntax errors, but the `SELECT` of `readRows` reads `y_events` as an alias of table `mixpanel_x_events` and returns the rows of token `x`; the model returns nothing. `Mpdb.TableOfMatchesNames` is about the names as strings and says nothing about how such SQL parses.
- Behaviour of a closed SQLite handle: the C API leaves it undefined. The model treats every statement on it as failing.
- `open()` called while a live handle is stored leaks the old handle. The model simply replaces it.
- `recreateDb` after a failed step: `createTable`, `insertRow` and `deleteRows` call it before `sqlite3_finalize`, so `sqlite3_close` finds an unfinalized statement, returns `SQLITE_BUSY` and leaves the handle open. The file is then removed and `open()` overwrites the pointer, leaking the old handle. The model keeps only the end state: no tables, and the pointer the reopen sets.
- The `rowsRead` counter and the `finalize` calls: apart from the ordering above, they only feed logging and resource cleanup.
- MpdbLemmas.FifoOnIncreasingTable: first-in-first-out is stated only for tables whose times strictly increase, because SQLite's order among equal times is unspecified, and whose rows all hold payloads, because a row without a blob counts toward `LIMIT` but is skipped by the read. The general case is `MpdbLemmas.ReadThenDelete` and `Mpdb.ReadFromEarliest`.
- Runs.FifoAfterRun: needs a clock that strictly advances between inserts, and a starting store whose rows hold payloads in time order, for the same reasons.
- Persistence.LoadThenRemove: stated only for tables whose times strictly increase and whose rows all hold payloads, for the same reasons.
- Persistence.LoadEntityIsOldest: stated only for tables whose times strictly increase and whose rows all hold payloads, so that the picked row is the first one. The general case is `Persistence.LoadEntityPeeksEarliest`.
- Mpdb.ReadRows: states the store and the error paths. The payloads on success are tied to the table by `Mpdb.ReadFromEarliest`, `MpdbLemmas.ReadThenDelete` and `MpdbLemmas.FifoOnIncreasingTable`.

=== FILE: categories.dfy ===
/**
 The closed set of logical queues (`PersistenceType`). Each category is stored in a
 table of its own; the table name embeds the category's case name as Swift prints it.
 */
module Categories {
  import opened Identifiers

  datatype PersistenceType = Events | People | Groups | Properties | OptOutStatus

  /** The case name that Swift string interpolation produces for a category. */
  function CaseName(t: PersistenceType): (name: string)
    ensures |name| > 0
    ensures '_' !in name
  {
    match t
    case Events => "events"
    case People => "people"
    case Groups => "groups"
    case Properties => "properties"
    case OptOutStatus => "optOutStatus"
  }

  /**
   Distinct categories print distinct case names, even when ASCII case is ignored, and
   no folded case name holds the `_` separator.
   */
  lemma CaseNameInjective(a: PersistenceType, b: PersistenceType)
    ensures Fold(CaseName(a)) == Fold(CaseName(b)) ==> a == b
    ensures '_' !in Fold(CaseName(a))
  {
    FoldUnderscore(CaseName(a));
    if a != b {
      var fa, fb := Fold(CaseName(a)), Fold(CaseName(b));
      assert fa[0] == Lower(CaseName(a)[0]) && fb[0] == Lower(CaseName(b)[0]);
      assert fa[1] == Lower(CaseName(a)[1]) && fb[1] == Lower(CaseName(b)[1]);
      match a
      case Events => assert fa[0] == 'e';
      case People => assert fa[0] == 'p' && fa[1] == 'e';
      case Groups => assert fa[0] == 'g';
      case Properties => assert fa[0] == 'p' && fa[1] == 'r';
      case OptOutStatus => assert fa[0] == 'o';
    }
  }
}

=== FILE: identifiers.dfy ===
/**
 How SQLite compares unquoted identifiers: ASCII letters match regardless of case, and
 every other character matches only itself. Two table names denote the same table
 exactly when their folded forms are equal.
 */
module Identifiers {

  /** The lower-case form of an ASCII upper-case letter; every other character is kept. */
  function Lower(c: char): (d: char)
    ensures 'A' <= c <= 'Z' ==> d as int == c as int + 32
    ensures !('A' <= c <= 'Z') ==> d == c
  {
    if 'A' <= c <= 'Z' then (c as int + 32) as char else c
  }

  /** An identifier folded to lower case, character by character. */
  function Fold(s: string): (f: string)
    ensures |f| == |s|
    ensures forall i :: 0 <= i < |s| ==> f[i] == Lower(s[i])
  {
    if |s| == 0 then [] else [Lower(s[0])] + Fold(s[1..])
  }

  /** Folding works character by character, so it distributes over concatenation. */
  lemma FoldAppend(a: string, b: string)
    ensures Fold(a + b) == Fold(a) + Fold(b)
  {
    var x, y := Fold(a + b), Fold(a) + Fold(b);
    assert |x| == |y|;
    forall i | 0 <= i < |x| ensures x[i] == y[i] {
      if i < |a| {
        assert (a + b)[i] == a[i];
      } else {
        assert (a + b)[i] == b[i - |a|];
      }
    }
  }

  /** Only `_` folds to `_`, so folding neither adds nor removes separators. */
  lemma FoldUnderscore(s: string)
    ensures '_' in Fold(s) <==> '_' in s
  {
    if '_' in s {
      var i :| 0 <= i < |s| && s[i] == '_';
      assert Fold(s)[i] == '_';
    }
    if '_' in Fold(s) {
      var i :| 0 <= i < |s| && Fold(s)[i] == '_';
      assert s[i] == '_';
    }
  }

  /** An identifier without ASCII upper-case letters is its own folded form. */
  lemma FoldNoUpper(s: string)
    requires forall i :: 0 <= i < |s| ==> !('A' <= s[i] <= 'Z')
    ensures Fold(s) == s
  {
    var f := Fold(s);
    assert forall i :: 0 <= i < |s| ==> f[i] == s[i];
  }
}

=== FILE: mpdb.dfy ===
/**
 The storage engine (`MPDB`): one process-wide SQLite connection and one table per
 (project token, category). The store is the database file's tables plus what the
 static `connection` pointer holds. The clock, the outcome of `sqlite3_open_v2` and
 whether a statement fails are inputs of each operation.

 Control flow common to `createTable`, `insertRow`, `deleteRows` and `readRows`:
 - no connection: only `open()` is attempted, nothing else happens;
 - the statement cannot run: create, insert and delete fall back on `recreateDb`,
   which deletes the file (every table of every token) and reopens; a read only
   returns nothing.
 */
module Mpdb {
  import opened Identifiers
  import opened Rows
  import opened Categories

  /**
   What the static `connection` pointer holds: nothing, an open handle, or a handle
   that has been closed. `close()` never resets the pointer, so a closed handle stays.
   */
  datatype Connection = Nil | Live | Stale

  /**
   What `sqlite3_open_v2` does: opens the file; fails but writes a handle, which
   `open()` then closes; or cannot allocate a handle and writes NULL.
   */
  datatype OpenOutcome = Opened | OpenFailed | NoMemory

  /** What the `SELECT` of `readRows` runs into. */
  datatype SelectFault = NoFault | PrepareFails | StepFailsAfter(rowsStepped: nat)

  datatype Store = Store(connection: Connection, tables: map<TableId, Table>)

  datatype ReadResult = ReadResult(store: Store, payloads: seq<Bytes>)

  /** The name `tableNameFor` writes into the SQL text: `mixpanel_`, the token, `_`, the category. */
  function TableNameFor(t: PersistenceType, token: string): (name: string)
    ensures |name| == 10 + |token| + |CaseName(t)|
    ensures name[..9] == "mixpanel_" && name[9..9 + |token|] == token
    ensures name[9 + |token|] == '_' && name[10 + |token|..] == CaseName(t)
  {
    "mixpanel_" + token + "_" + CaseName(t)
  }

  /**
   A table as SQLite identifies it. Unquoted names match ignoring ASCII case, so a table
   is determined by its category and its token folded to lower case (`TableOfMatchesNames`).
   */
  datatype TableId = TableId(category: PersistenceType, folded: string)

  /** The table an operation on category `t` for `token` reaches. */
  function TableOf(t: PersistenceType, token: string): (id: TableId)
  {
    TableId(t, Fold(token))
  }

  /** The folded name: `mixpanel_`, the folded token, `_`, the folded case name. */
  lemma FoldedName(t: PersistenceType, token: string)
    ensures Fold(TableNameFor(t, token)) == "mixpanel_" + Fold(token) + "_" + Fold(CaseName(t))
  {
    assert TableNameFor(t, token) == "mixpanel_" + token + "_" + CaseName(t);
    FoldAppend("mixpanel_" + token + "_", CaseName(t));
    FoldAppend("mixpanel_" + token, "_");
    FoldAppend("mixpanel_", token);
    FoldLiterals();
  }

  lemma FoldLiterals()
    ensures Fold("mixpanel_") == "mixpanel_" && Fold("_") == "_"
  {
    FoldNoUpper("mixpanel_");
    FoldNoUpper("_");
  }

  /**
   Two (category, token) pairs write names SQLite resolves to the same table exactly when
   the categories are equal and the tokens agree ignoring ASCII case, whatever characters
   the tokens hold. So `TableOf` is the right key for the store, and the five categories
   of one token live in five distinct tables.
   */
  lemma TableOfMatchesNames(t1: PersistenceType, token1: string, t2: PersistenceType, token2: string)
    ensures Fold(TableNameFor(t1, token1)) == Fold(TableNameFor(t2, token2))
            <==> TableOf(t1, token1) == TableOf(t2, token2)
  {
    if Fold(TableNameFor(t1, token1)) == Fold(TableNameFor(t2, token2)) {
      SameNameSameTable(t1, token1, t2, token2);
    } else if TableOf(t1, token1) == TableOf(t2, token2) {
      FoldedName(t1, token1);
      FoldedName(t2, token2);
    }
  }

  lemma SameNameSameTable(t1: PersistenceType, token1: string, t2: PersistenceType, token2: string)
    requires Fold(TableNameFor(t1, token1)) == Fold(TableNameFor(t2, token2))
    ensures t1 == t2 && Fold(token1) == Fold(token2)
  {
    FoldedName(t1, token1);
    FoldedName(t2, token2);
    CaseNameInjective(t1, t2);
    CaseNameInjective(t2, t1);
    SplitAtLastSeparator(Fold(token1), Fold(CaseName(t1)), Fold(token2), Fold(CaseName(t2)));
  }

  /**
   Two names `mixpanel_<a>_<n>` with no `_` inside either `<n>` are equal only when both
   the token parts and the category parts are.
   */
  lemma SplitAtLastSeparator(a: string, n1: string, b: string, n2: string)
    requires "mixpanel_" + a + "_" + n1 == "mixpanel_" + b + "_" + n2
    requires '_' !in n1 && '_' !in n2
    ensures a == b && n1 == n2
  {
    var x := "mixpanel_" + a + "_" + n1;
    var p1, p2 := "mixpanel_" + a + "_", "mixpanel_" + b + "_";
    assert x == p1 + n1 == p2 + n2;
    assert p1[|p1| - 1] == '_' && p2[|p2| - 1] == '_';
    if |n1| < |n2| {
      SeparatorInside(p1, n1, p2, n2);
      assert false;
    } else if |n2| < |n1| {
      SeparatorInside(p2, n2, p1, n1);
      assert false;
    } else {
      assert n1 == x[|p1|..] && n2 == x[|p2|..];
      assert p1 == x[..|p1|] && p2 == x[..|p2|];
      assert a == p1[9..|p1| - 1] && b == p2[9..|p2| - 1];
    }
  }

  /** If `p + n == q + m` with `m` the longer tail, the last character of `p` falls inside `m`. */
  lemma SeparatorInside(p: string, n: string, q: string, m: string)
    requires p + n == q + m && |n| < |m| && 0 < |p|
    ensures p[|p| - 1] in m
  {
    var x := p + n;
    var d := |m| - |n| - 1;
    assert x[|p| - 1] == p[|p| - 1];
    assert x[|q| + d] == m[d];
  }

  /** `open()`: the file's tables are untouched; the pointer holds what SQLite handed back. */
  function Open(s: Store, outcome: OpenOutcome): (r: Store)
    ensures r.tables == s.tables
    ensures r.connection == Live <==> outcome == Opened
    ensures r.connection == Nil <==> outcome == NoMemory
  {
    var c := match outcome
      case Opened => Live
      case OpenFailed => Stale
      case NoMemory => Nil;
    s.(connection := c)
  }

  /** `close()`: the handle is closed but the pointer is not cleared. */
  function Close(s: Store): (r: Store)
    ensures r.tables == s.tables
    ensures r.connection != Live
    ensures r.connection == Nil <==> s.connection == Nil
  {
    if s.connection == Nil then s else s.(connection := Stale)
  }

  /**
   `recreateDb()`: close, delete the database file, reopen. Every table of every token
   is gone afterwards, and no table is created again. When it runs from a failed step,
   the statement is not yet finalized, so the close does not release the handle; the
   model keeps only the end state.
   */
  function RecreateDb(s: Store, outcome: OpenOutcome): (r: Store)
    ensures r.tables == map[]
    ensures r.connection == Live <==> outcome == Opened
  {
    Open(Close(s).(tables := map[]), outcome)
  }

  /**
   A statement on the stored handle cannot run: the handle is a closed one, or SQLite
   rejects the statement (a malformed file, a full disk, a token that is not a valid
   identifier, ...).
   */
  predicate CannotRun(s: Store, fails: bool)
  {
    s.connection == Stale || fails
  }

  /** The tables other than `name` are the same before and after. */
  predicate OthersUnchanged(before: map<TableId, Table>, after: map<TableId, Table>, name: TableId)
  {
    after - {name} == before - {name}
  }

  lemma UpdateKeepsOthers(m: map<TableId, Table>, name: TableId, v: Table)
    ensures OthersUnchanged(m, m[name := v], name)
  {
  }

  /** `createTable`: `CREATE TABLE IF NOT EXISTS`, falling back on `recreateDb` on failure. */
  function CreateTable(s: Store, t: PersistenceType, token: string, fails: bool, outcome: OpenOutcome): (r: Store)
    ensures s.connection == Nil ==> r == Open(s, outcome)
    ensures s.connection != Nil && CannotRun(s, fails) ==> r.tables == map[]
    ensures s.connection == Live && !fails ==>
      var name := TableOf(t, token);
      && r.connection == Live
      && name in r.tables
      && (name in s.tables ==> r == s)
      && (name !in s.tables ==> r.tables[name].rows == [])
      && OthersUnchanged(s.tables, r.tables, name)
  {
    var name := TableOf(t, token);
    if s.connection == Nil then Open(s, outcome)
    else if CannotRun(s, fails) then RecreateDb(s, outcome)
    else if name in s.tables then s
    else
      UpdateKeepsOthers(s.tables, name, EmptyTable);
      s.(tables := s.tables[name := EmptyTable])
  }

  /**
   `insertRow`: append one row holding `data`, stamped `now`. Empty `data` is taken to have
   no buffer address, so nothing is prepared and nothing happens. A missing table makes the
   `INSERT` fail to prepare, which like any other failure leads to `recreateDb`.
   */
  function InsertRow(s: Store, t: PersistenceType, token: string, data: Bytes, now: Time, fails: bool,
                     outcome: OpenOutcome): (r: Store)
    ensures s.connection == Nil ==> r == Open(s, outcome)
    ensures s.connection != Nil && |data| == 0 ==> r == s
    ensures s.connection != Nil && 0 < |data| && (CannotRun(s, fails) || TableOf(t, token) !in s.tables) ==>
      r.tables == map[]
    ensures s.connection == Live && !fails && 0 < |data| && TableOf(t, token) in s.tables ==>
      var name := TableOf(t, token);
      var before := s.tables[name].rows;
      && r.connection == Live
      && name in r.tables
      && var after := r.tables[name].rows;
      && |after| == |before| + 1
      && after[..|before|] == before
      && after[|before|].data == data
      && after[|before|].time == now
      && after[|before|].id !in Ids(before)
      && after[|before|].id == s.tables[name].lastId + 1 == r.tables[name].lastId
      && OthersUnchanged(s.tables, r.tables, name)
  {
    var name := TableOf(t, token);
    if s.connection == Nil then Open(s, outcome)
    else if |data| == 0 then s
    else if CannotRun(s, fails) || name !in s.tables then RecreateDb(s, outcome)
    else
      var grown := Append(s.tables[name], data, now);
      UpdateKeepsOthers(s.tables, name, grown);
      s.(tables := s.tables[name := grown])
  }

  /**
   `deleteRows`: remove the `numRows` rows with the smallest time (all of them when
   `numRows` is at least the table size or negative, as SQLite reads `LIMIT -1`).
   */
  function DeleteRows(s: Store, t: PersistenceType, token: string, numRows: int, fails: bool,
                      outcome: OpenOutcome): (r: Store)
    ensures s.connection == Nil ==> r == Open(s, outcome)
    ensures s.connection != Nil && (CannotRun(s, fails) || TableOf(t, token) !in s.tables) ==>
      r.tables == map[]
    ensures s.connection == Live && !fails && TableOf(t, token) in s.tables ==>
      var name := TableOf(t, token);
      var before := s.tables[name].rows;
      && r.connection == Live
      && name in r.tables
      && var after := r.tables[name].rows;
      && multiset(after) <= multiset(before)
      && |after| == |before| - LimitCount(numRows, |before|)
      && (forall a, b :: a in multiset(before) - multiset(after) && b in after ==> a.time <= b.time)
      && r.tables[name].lastId == s.tables[name].lastId
      && OthersUnchanged(s.tables, r.tables, name)
  {
    var name := TableOf(t, token);
    if s.connection == Nil then Open(s, outcome)
    else if CannotRun(s, fails) || name !in s.tables then RecreateDb(s, outcome)
    else
      var shrunk := DeleteEarliest(s.tables[name], numRows);
      UpdateKeepsOthers(s.tables, name, shrunk);
      s.(tables := s.tables[name := shrunk])
  }

  /** On a live connection with the table present, a delete replaces the table by what the earliest-rows delete leaves. */
  lemma DeleteLeaves(s: Store, t: PersistenceType, token: string, numRows: int, outcome: OpenOutcome)
    requires s.connection == Live && TableOf(t, token) in s.tables
    ensures DeleteRows(s, t, token, numRows, false, outcome)
            == s.(tables := s.tables[TableOf(t, token) := DeleteEarliest(s.tables[TableOf(t, token)], numRows)])
  {
  }

  /** On a live connection with the table present, a successful insert of a payload replaces the table by the appended one. */
  lemma InsertAppends(s: Store, t: PersistenceType, token: string, data: Bytes, now: Time, outcome: OpenOutcome)
    requires s.connection == Live && TableOf(t, token) in s.tables && 0 < |data|
    ensures InsertRow(s, t, token, data, now, false, outcome)
            == s.(tables := s.tables[TableOf(t, token) := Append(s.tables[TableOf(t, token)], data, now)])
  {
  }

  /**
   `readRows`: the payloads of the `numRows` earliest rows, in table order, skipping rows
   without a blob. A read never changes the tables and never recreates the database:
   when the `SELECT` cannot be prepared the result is empty, and when stepping fails the
   rows read so far are returned.
   */
  function ReadRows(s: Store, t: PersistenceType, token: string, numRows: int, fault: SelectFault,
                    outcome: OpenOutcome): (r: ReadResult)
    ensures s.connection == Nil ==> r.store == Open(s, outcome) && r.payloads == []
    ensures s.connection != Nil ==> r.store == s
    ensures r.store.tables == s.tables
    ensures s.connection == Stale || fault == PrepareFails || TableOf(t, token) !in s.tables ==>
      r.payloads == []
  {
    var name := TableOf(t, token);
    if s.connection == Nil then ReadResult(Open(s, outcome), [])
    else if s.connection == Stale || fault == PrepareFails || name !in s.tables then ReadResult(s, [])
    else ReadResult(s, Blobs(Stepped(SelectEarliest(s.tables[name], numRows), fault)))
  }

  /** The rows the `sqlite3_step` loop visits before it stops: all of them, or those before a failing step. */
  function Stepped(picked: seq<Row>, fault: SelectFault): (visited: seq<Row>)
    ensures |visited| <= |picked| && visited == picked[..|visited|]
    ensures !fault.StepFailsAfter? ==> visited == picked
    ensures fault.StepFailsAfter? && fault.rowsStepped < |picked| ==> |visited| == fault.rowsStepped
    ensures fault.StepFailsAfter? && |picked| <= fault.rowsStepped ==> visited == picked
  {
    match fault
    case StepFailsAfter(k) => if k < |picked| then picked[..k] else picked
    case _ => picked
  }

  /** A read returns at most `numRows` payloads when `numRows` is not negative. */
  lemma ReadAtMost(s: Store, t: PersistenceType, token: string, numRows: int, fault: SelectFault,
                   outcome: OpenOutcome)
    ensures 0 <= numRows ==> |ReadRows(s, t, token, numRows, fault, outcome).payloads| <= numRows
  {
  }

  /** Each payload a read returns is the payload of one of the `numRows` earliest rows of the table. */
  lemma ReadFromEarliest(s: Store, t: PersistenceType, token: string, numRows: int, fault: SelectFault,
                         outcome: OpenOutcome)
    requires s.connection == Live && TableOf(t, token) in s.tables
    ensures var r := ReadRows(s, t, token, numRows, fault, outcome);
      forall k :: 0 <= k < |r.payloads| ==>
        exists a :: a in SelectEarliest(s.tables[TableOf(t, token)], numRows) && a.data == r.payloads[k]
  {
    if fault != PrepareFails {
      ReadFromEarliestStepped(s, t, token, numRows, fault, outcome);
    }
  }

  lemma ReadFromEarliestStepped(s: Store, t: PersistenceType, token: string, numRows: int, fault: SelectFault,
                                outcome: OpenOutcome)
    requires s.connection == Live && TableOf(t, token) in s.tables && fault != PrepareFails
    ensures var r := ReadRows(s, t, token, numRows, fault, outcome);
      forall k :: 0 <= k < |r.payloads| ==>
        exists a :: a in SelectEarliest(s.tables[TableOf(t, token)], numRows) && a.data == r.payloads[k]
  {
    var picked := SelectEarliest(s.tables[TableOf(t, token)], numRows);
    ReadPayloads(s, t, token, numRows, fault, outcome);
    BlobsOfVisited(picked, fault);
  }

  /** On a live connection with the table present, a read yields the blobs of the rows it steps through. */
  lemma ReadPayloads(s: Store, t: PersistenceType, token: string, numRows: int, fault: SelectFault,
                     outcome: OpenOutcome)
    requires s.connection == Live && TableOf(t, token) in s.tables && fault != PrepareFails
    ensures ReadRows(s, t, token, numRows, fault, outcome).payloads
            == Blobs(Stepped(SelectEarliest(s.tables[TableOf(t, token)], numRows), fault))
  {
  }

  lemma BlobsOfVisited(picked: seq<Row>, fault: SelectFault)
    ensures var out := Blobs(Stepped(picked, fault));
      forall k :: 0 <= k < |out| ==> exists a :: a in picked && a.data == out[k]
  {
    var visited := Stepped(picked, fault);
    var out := Blobs(visited);
    forall k | 0 <= k < |out| ensures exists a :: a in picked && a.data == out[k] {
      var j :| 0 <= j < |visited| && visited[j].data == out[k];
      assert visited[j] == picked[j];
      assert picked[j] in picked;
    }
  }
}

=== FILE: mpdb_lemmas.dfy ===
/**
 Properties relating the storage engine's operations to each other: category isolation,
 idempotent table creation, the destructive recovery path, and the first-in-first-out
 behaviour of reads and deletes.
 */
module MpdbLemmas {
  import opened Identifiers
  import opened Rows
  import opened Categories
  import opened Mpdb

  /** `name` is absent from both maps, or holds the same table in both. */
  predicate SameEntry(a: map<TableId, Table>, b: map<TableId, Table>, name: TableId)
  {
    && (name in a <==> name in b)
    && (name in a ==> a[name] == b[name])
  }

  lemma OthersUnchangedEntry(a: map<TableId, Table>, b: map<TableId, Table>, name: TableId, other: TableId)
    requires OthersUnchanged(a, b, name) && other != name
    ensures SameEntry(a, b, other)
  {
    assert other in a <==> other in a - {name};
    assert other in b <==> other in b - {name};
    if other in a {
      assert a[other] == (a - {name})[other];
      assert b[other] == (b - {name})[other];
    }
  }

  /**
   Category isolation: a successful create, insert or delete on one (category, token)
   leaves the table of every other (category, token) exactly as it was, present or not.
   "Other" is as SQLite sees it: tokens that differ only in ASCII case name one table.
   */
  lemma CategoryIsolation(s: Store, t: PersistenceType, token: string, t2: PersistenceType, token2: string,
                          data: Bytes, now: Time, numRows: int, outcome: OpenOutcome)
    requires s.connection == Live && TableOf(t, token) in s.tables
    requires t != t2 || Fold(token) != Fold(token2)
    ensures SameEntry(s.tables, CreateTable(s, t, token, false, outcome).tables, TableOf(t2, token2))
    ensures SameEntry(s.tables, InsertRow(s, t, token, data, now, false, outcome).tables, TableOf(t2, token2))
    ensures SameEntry(s.tables, DeleteRows(s, t, token, numRows, false, outcome).tables, TableOf(t2, token2))
  {
    var other := TableOf(t2, token2);
    assert CreateTable(s, t, token, false, outcome) == s;
    InsertIsolation(s, t, token, data, now, outcome, other);
    DeleteIsolation(s, t, token, numRows, outcome, other);
  }

  lemma InsertIsolation(s: Store, t: PersistenceType, token: string, data: Bytes, now: Time,
                        outcome: OpenOutcome, other: TableId)
    requires s.connection == Live && TableOf(t, token) in s.tables && other != TableOf(t, token)
    ensures SameEntry(s.tables, InsertRow(s, t, token, data, now, false, outcome).tables, other)
  {
    if 0 < |data| {
      OthersUnchangedEntry(s.tables, InsertRow(s, t, token, data, now, false, outcome).tables,
                           TableOf(t, token), other);
    }
  }

  lemma DeleteIsolation(s: Store, t: PersistenceType, token: string, numRows: int, outcome: OpenOutcome,
                        other: TableId)
    requires s.connection == Live && TableOf(t, token) in s.tables && other != TableOf(t, token)
    ensures SameEntry(s.tables, DeleteRows(s, t, token, numRows, false, outcome).tables, other)
  {
    OthersUnchangedEntry(s.tables, DeleteRows(s, t, token, numRows, false, outcome).tables,
                         TableOf(t, token), other);
  }

  /**
   Tokens that differ only in ASCII case reach the same table: creating it under one
   spelling is a no-op once it exists under another, and a read or an insert under
   either spelling sees and changes the same rows.
   */
  lemma CaseVariantTokensShareTable(s: Store, t: PersistenceType, token: string, token2: string,
                                    data: Bytes, now: Time, numRows: int, fault: SelectFault,
                                    outcome: OpenOutcome)
    requires s.connection == Live && TableOf(t, token) in s.tables && Fold(token) == Fold(token2)
    ensures CreateTable(s, t, token2, false, outcome) == s
    ensures ReadRows(s, t, token2, numRows, fault, outcome) == ReadRows(s, t, token, numRows, fault, outcome)
    ensures InsertRow(s, t, token2, data, now, false, outcome) == InsertRow(s, t, token, data, now, false, outcome)
  {
  }

  /** A new table is created empty and every other table is kept. */
  lemma CreateTableFresh(s: Store, t: PersistenceType, token: string, t2: PersistenceType, token2: string,
                         outcome: OpenOutcome)
    requires s.connection == Live && TableOf(t, token) !in s.tables
    requires t != t2 || Fold(token) != Fold(token2)
    ensures var r := CreateTable(s, t, token, false, outcome).tables;
      && r[TableOf(t, token)].rows == []
      && SameEntry(s.tables, r, TableOf(t2, token2))
  {
    OthersUnchangedEntry(s.tables, CreateTable(s, t, token, false, outcome).tables,
                         TableOf(t, token), TableOf(t2, token2));
  }

  /**
   `CREATE TABLE IF NOT EXISTS` is idempotent: a second identical call changes nothing when
   the first runs on a live handle, or when the statement fails on a stored handle. It is
   not idempotent from an empty pointer, where the first call only opens and the second
   creates the table, nor from a closed handle with a statement that would succeed, where
   the first call recreates the database and the second creates the table.
   */
  lemma CreateTableIdempotent(s: Store, t: PersistenceType, token: string, fails: bool, outcome: OpenOutcome)
    requires s.connection == Live || (s.connection != Nil && fails)
    ensures var once := CreateTable(s, t, token, fails, outcome);
      CreateTable(once, t, token, fails, outcome) == once
  {
  }

  /**
   `recreateDb` reopens without creating any table, so every write that follows it finds
   no table and the tables stay empty: on a stored handle the statement fails to prepare
   and wipes the database again, and after a reopen that got no handle the write only
   opens. Reads find nothing.
   */
  lemma WritesAfterRecreateAreLost(s: Store, outcome: OpenOutcome, t: PersistenceType, token: string,
                                   data: Bytes, now: Time, numRows: int, fails: bool,
                                   fault: SelectFault, outcome2: OpenOutcome)
    ensures InsertRow(RecreateDb(s, outcome), t, token, data, now, fails, outcome2).tables == map[]
    ensures DeleteRows(RecreateDb(s, outcome), t, token, numRows, fails, outcome2).tables == map[]
    ensures ReadRows(RecreateDb(s, outcome), t, token, numRows, fault, outcome2).payloads == []
  {
  }

  /** Only a `createTable` after the recovery makes the next insert stick. */
  lemma RecoveryNeedsCreateTable(s: Store, t: PersistenceType, token: string, data: Bytes, now: Time,
                                 outcome: OpenOutcome, outcome2: OpenOutcome)
    requires 0 < |data|
    ensures var s1 := CreateTable(RecreateDb(s, Opened), t, token, false, outcome);
      var s2 := InsertRow(s1, t, token, data, now, false, outcome2);
      var name := TableOf(t, token);
      && s2.connection == Live
      && s2.tables.Keys == {name}
      && |s2.tables[name].rows| == 1
      && s2.tables[name].rows[0].data == data
      && s2.tables[name].rows[0].time == now
  {
    var name := TableOf(t, token);
    var s1 := CreateTable(RecreateDb(s, Opened), t, token, false, outcome);
    assert s1.tables == map[name := EmptyTable];
    var s2 := InsertRow(s1, t, token, data, now, false, outcome2);
    assert s2.tables.Keys == {name};
  }

  /**
   `close()` of a stored handle leaves the closed handle in place, so after it every create,
   insert (of a non-empty payload) and delete fails and wipes the database, and reads
   return nothing. Closing an empty pointer wipes nothing: the next call only opens.
   */
  lemma WritesAfterCloseWipe(s: Store, t: PersistenceType, token: string, data: Bytes, now: Time,
                             numRows: int, fails: bool, fault: SelectFault, outcome: OpenOutcome)
    requires s.connection != Nil && 0 < |data|
    ensures CreateTable(Close(s), t, token, fails, outcome).tables == map[]
    ensures InsertRow(Close(s), t, token, data, now, fails, outcome).tables == map[]
    ensures DeleteRows(Close(s), t, token, numRows, fails, outcome).tables == map[]
    ensures ReadRows(Close(s), t, token, numRows, fault, outcome) == ReadResult(Close(s), [])
  {
  }

  /**
   A read and a delete with the same `numRows` agree: the payloads read are those of exactly
   the rows the delete removes, so a caller that reads a batch and then deletes it loses
   no row it has not read.
   */
  lemma ReadThenDelete(s: Store, t: PersistenceType, token: string, numRows: int, outcome: OpenOutcome)
    requires s.connection == Live && TableOf(t, token) in s.tables
    ensures var name := TableOf(t, token);
      var picked := SelectEarliest(s.tables[name], numRows);
      && ReadRows(s, t, token, numRows, NoFault, outcome).payloads == Blobs(picked)
      && name in DeleteRows(s, t, token, numRows, false, outcome).tables
      && multiset(picked) + multiset(DeleteRows(s, t, token, numRows, false, outcome).tables[name].rows)
         == multiset(s.tables[name].rows)
  {
    var tbl := s.tables[TableOf(t, token)];
    ReadPayloads(s, t, token, numRows, NoFault, outcome);
    assert Stepped(SelectEarliest(tbl, numRows), NoFault) == SelectEarliest(tbl, numRows);
    DeleteLeaves(s, t, token, numRows, outcome);
    SelectThenDelete(tbl, numRows);
  }

  /**
   First in, first out: on a table whose times increase in insertion order and whose rows
   all hold a payload, a read returns the payloads of the first `LIMIT numRows` rows in
   order, and a delete leaves exactly the rows after them.
   */
  lemma FifoOnIncreasingTable(s: Store, t: PersistenceType, token: string, numRows: int, outcome: OpenOutcome)
    requires s.connection == Live && TableOf(t, token) in s.tables
    requires TimeIncreasing(s.tables[TableOf(t, token)].rows)
    requires AllHavePayload(s.tables[TableOf(t, token)].rows)
    ensures var name := TableOf(t, token);
      var rows := s.tables[name].rows;
      var lim := LimitCount(numRows, |rows|);
      && ReadRows(s, t, token, numRows, NoFault, outcome).payloads == Payloads(rows[..lim])
      && name in DeleteRows(s, t, token, numRows, false, outcome).tables
      && DeleteRows(s, t, token, numRows, false, outcome).tables[name].rows == rows[lim..]
  {
    var tbl := s.tables[TableOf(t, token)];
    ReadPayloads(s, t, token, numRows, NoFault, outcome);
    assert Stepped(SelectEarliest(tbl, numRows), NoFault) == SelectEarliest(tbl, numRows);
    IncreasingBatch(tbl, numRows);
    DeleteLeaves(s, t, token, numRows, outcome);
    SelectDeleteOrdered(tbl, numRows);
  }

  /** A delete of at least the table's size, or with a negative limit, empties the table. */
  lemma DeleteAllEmpties(s: Store, t: PersistenceType, token: string, numRows: int, outcome: OpenOutcome)
    requires s.connection == Live && TableOf(t, token) in s.tables
    requires numRows < 0 || numRows >= |s.tables[TableOf(t, token)].rows|
    ensures var r := DeleteRows(s, t, token, numRows, false, outcome);
      TableOf(t, token) in r.tables && r.tables[TableOf(t, token)].rows == []
  {
  }

  /** With a clock that moves forward, an insert keeps the table's times increasing. */
  lemma InsertKeepsIncreasing(s: Store, t: PersistenceType, token: string, data: Bytes, clock: Time,
                              now: Time, outcome: OpenOutcome)
    requires s.connection == Live && TableOf(t, token) in s.tables
    requires TimeIncreasing(s.tables[TableOf(t, token)].rows)
    requires TimesAtMost(s.tables[TableOf(t, token)].rows, clock) && clock < now
    ensures var r := InsertRow(s, t, token, data, now, false, outcome);
      && TableOf(t, token) in r.tables
      && TimeIncreasing(r.tables[TableOf(t, token)].rows)
      && TimesAtMost(r.tables[TableOf(t, token)].rows, now)
  {
    if 0 < |data| {
      InsertAppends(s, t, token, data, now, outcome);
      AppendKeepsIncreasing(s.tables[TableOf(t, token)], data, clock, now);
    }
  }
}

=== FILE: persistence.dfy ===
/**
 The queue manager (`MixpanelPersistence`): records go in as JSON payloads through the
 storage engine, and come out in batches, oldest first, with the payloads that do not
 decode to a record dropped. JSON encoding and decoding are partial functions the model
 takes as a parameter.
 */
module Persistence {
  import opened Wrappers
  import opened Rows
  import opened Categories
  import opened Mpdb
  import opened MpdbLemmas

  /** The `batchSize` that loading and removing use when the caller gives none. */
  const DefaultBatchSize: int := 50

  /**
   `JSONHandler`: serializing a record may fail, and decoding a payload may fail or give
   something that is not a record (the `as? InternalProperties` cast).
   */
  datatype Codec<!R> = Codec(serialize: R -> Option<Bytes>, deserialize: Bytes -> Option<R>)

  datatype Loaded<R> = Loaded(store: Store, records: seq<R>)

  datatype Peeked<R> = Peeked(store: Store, record: Option<R>)

  /** `saveEntity`: insert the payload when serialization succeeds, else do nothing at all. */
  function SaveEntity<R>(s: Store, codec: Codec<R>, entity: R, t: PersistenceType, token: string,
                         now: Time, fails: bool, outcome: OpenOutcome): (r: Store)
    ensures codec.serialize(entity).None? ==> r == s
    ensures codec.serialize(entity).Some? ==>
      r == InsertRow(s, t, token, codec.serialize(entity).value, now, fails, outcome)
    ensures s.connection == Live && !fails && TableOf(t, token) in s.tables && codec.serialize(entity).Some?
            && 0 < |codec.serialize(entity).value| ==>
      var name := TableOf(t, token);
      var before := s.tables[name].rows;
      && name in r.tables
      && var after := r.tables[name].rows;
      && |after| == |before| + 1
      && after[..|before|] == before
      && after[|before|].data == codec.serialize(entity).value
      && after[|before|].time == now
  {
    match codec.serialize(entity)
    case None => s
    case Some(data) => InsertRow(s, t, token, data, now, fails, outcome)
  }

  /** `saveEntities` has an empty body. */
  function SaveEntities<R>(s: Store, entities: seq<R>, t: PersistenceType, token: string): (r: Store)
    ensures r == s
  {
    s
  }

  /** `resetEvents` has an empty body. */
  function ResetEvents(s: Store): (r: Store)
    ensures r == s
  {
    s
  }

  /** The records the payloads decode to, in payload order, skipping payloads that do not decode. */
  function DeserializeAll<R>(deserialize: Bytes -> Option<R>, payloads: seq<Bytes>): (records: seq<R>)
    ensures |records| <= |payloads|
    ensures forall i :: 0 <= i < |records| ==>
      exists j :: 0 <= j < |payloads| && deserialize(payloads[j]) == Some(records[i])
  {
    if |payloads| == 0 then []
    else
      var rest := DeserializeAll(deserialize, payloads[1..]);
      assert forall i :: 0 <= i < |rest| ==>
        exists j :: 0 <= j < |payloads| && deserialize(payloads[j]) == Some(rest[i]) by {
        forall i | 0 <= i < |rest| ensures exists j :: 0 <= j < |payloads| && deserialize(payloads[j]) == Some(rest[i]) {
          var j :| 0 <= j < |payloads[1..]| && deserialize(payloads[1..][j]) == Some(rest[i]);
          assert payloads[j + 1] == payloads[1..][j];
        }
      }
      match deserialize(payloads[0])
      case Some(record) => [record] + rest
      case None => rest
  }

  /** Decoding works payload by payload, so the records keep the relative order of their payloads. */
  lemma {:induction false} DeserializeAllAppend<R>(deserialize: Bytes -> Option<R>, a: seq<Bytes>, b: seq<Bytes>)
    ensures DeserializeAll(deserialize, a + b) == DeserializeAll(deserialize, a) + DeserializeAll(deserialize, b)
  {
    if |a| == 0 {
      assert a + b == b;
    } else {
      assert (a + b)[1..] == a[1..] + b;
      DeserializeAllAppend(deserialize, a[1..], b);
    }
  }

  /** A payload that decodes contributes its record; one that does not contributes nothing. */
  lemma DeserializeOne<R>(deserialize: Bytes -> Option<R>, p: Bytes)
    ensures DeserializeAll(deserialize, [p]) == match deserialize(p) case Some(x) => [x] case None => []
  {
    assert [p][1..] == [];
  }

  /** When every payload decodes, nothing is dropped and the records line up with the payloads. */
  lemma {:induction false} DeserializeAllDecodable<R>(deserialize: Bytes -> Option<R>, payloads: seq<Bytes>)
    requires forall j :: 0 <= j < |payloads| ==> deserialize(payloads[j]).Some?
    ensures |DeserializeAll(deserialize, payloads)| == |payloads|
    ensures forall i :: 0 <= i < |payloads| ==> DeserializeAll(deserialize, payloads)[i] == deserialize(payloads[i]).value
  {
    if |payloads| > 0 {
      var tail := payloads[1..];
      assert forall j :: 0 <= j < |tail| ==> tail[j] == payloads[j + 1];
      DeserializeAllDecodable(deserialize, tail);
    }
  }

  /**
   `loadEntitiesInBatch`: read up to `batchSize` payloads and keep those that decode, in
   read order. Loading only reads, so the tables are never changed.
   */
  function LoadEntitiesInBatch<R>(s: Store, codec: Codec<R>, t: PersistenceType, token: string, fault: SelectFault,
                                  outcome: OpenOutcome, batchSize: int := DefaultBatchSize): (r: Loaded<R>)
    ensures r.store.tables == s.tables
    ensures s.connection != Nil ==> r.store == s
    ensures 0 <= batchSize ==> |r.records| <= batchSize
    ensures r.records == DeserializeAll(codec.deserialize, ReadRows(s, t, token, batchSize, fault, outcome).payloads)
  {
    var read := ReadRows(s, t, token, batchSize, fault, outcome);
    ReadAtMost(s, t, token, batchSize, fault, outcome);
    Loaded(read.store, DeserializeAll(codec.deserialize, read.payloads))
  }

  /** `loadEntity`: the first record of a batch of one, if there is one. */
  function LoadEntity<R>(s: Store, codec: Codec<R>, t: PersistenceType, token: string, fault: SelectFault,
                         outcome: OpenOutcome): (r: Peeked<R>)
    ensures var batch := LoadEntitiesInBatch(s, codec, t, token, fault, outcome, 1);
      && r.store == batch.store
      && (r.record.None? <==> batch.records == [])
      && (r.record.Some? ==> batch.records == [r.record.value])
  {
    var batch := LoadEntitiesInBatch(s, codec, t, token, fault, outcome, 1);
    Peeked(batch.store, FirstOf(batch.records))
  }

  /** The first element of a sequence of at most one, if any. */
  function FirstOf<R>(xs: seq<R>): (r: Option<R>)
    ensures r.None? <==> xs == []
    ensures |xs| <= 1 && r.Some? ==> xs == [r.value]
  {
    if |xs| == 0 then None else Some(xs[0])
  }

  /** `removeEventsInBatch`: delete the `batchSize` oldest rows of the category. */
  function RemoveEventsInBatch(s: Store, t: PersistenceType, token: string, fails: bool, outcome: OpenOutcome,
                               batchSize: int := DefaultBatchSize): (r: Store)
    ensures r == DeleteRows(s, t, token, batchSize, fails, outcome)
    ensures s.connection == Live && !fails && TableOf(t, token) in s.tables ==>
      var name := TableOf(t, token);
      var before := s.tables[name].rows;
      && name in r.tables
      && multiset(r.tables[name].rows) <= multiset(before)
      && |r.tables[name].rows| == |before| - LimitCount(batchSize, |before|)
      && OthersUnchanged(s.tables, r.tables, name)
  {
    DeleteRows(s, t, token, batchSize, fails, outcome)
  }

  /** Called without a batch size, loading reads and removing deletes at most 50 rows. */
  lemma DefaultBatchIsFifty<R>(s: Store, codec: Codec<R>, t: PersistenceType, token: string, outcome: OpenOutcome)
    requires s.connection == Live && TableOf(t, token) in s.tables
    ensures var before := s.tables[TableOf(t, token)].rows;
      && |LoadEntitiesInBatch(s, codec, t, token, NoFault, outcome).records| <= 50
      && |RemoveEventsInBatch(s, t, token, false, outcome).tables[TableOf(t, token)].rows|
         == |before| - (if |before| < 50 then |before| else 50)
  {
  }

  /**
   Load then remove with the same batch size on a table in insertion order: the records
   loaded are the decodings of the payloads of exactly the rows removed, oldest first,
   and the rows after them stay.
   */
  lemma LoadThenRemove<R>(s: Store, codec: Codec<R>, t: PersistenceType, token: string, batchSize: int,
                          outcome: OpenOutcome)
    requires s.connection == Live && TableOf(t, token) in s.tables
    requires TimeIncreasing(s.tables[TableOf(t, token)].rows)
    requires AllHavePayload(s.tables[TableOf(t, token)].rows)
    ensures var rows := s.tables[TableOf(t, token)].rows;
      var lim := LimitCount(batchSize, |rows|);
      && LoadEntitiesInBatch(s, codec, t, token, NoFault, outcome, batchSize).records
         == DeserializeAll(codec.deserialize, Payloads(rows[..lim]))
      && RemoveEventsInBatch(s, t, token, false, outcome, batchSize).tables[TableOf(t, token)].rows == rows[lim..]
  {
    FifoOnIncreasingTable(s, t, token, batchSize, outcome);
  }

  /**
   `loadEntity` peeks at the oldest row only: its result is the decoding of the oldest
   payload, so a malformed oldest payload yields nothing even when later ones decode.
   */
  lemma LoadEntityIsOldest<R>(s: Store, codec: Codec<R>, t: PersistenceType, token: string, outcome: OpenOutcome)
    requires s.connection == Live && TableOf(t, token) in s.tables
    requires TimeIncreasing(s.tables[TableOf(t, token)].rows)
    requires AllHavePayload(s.tables[TableOf(t, token)].rows)
    requires |s.tables[TableOf(t, token)].rows| > 0
    ensures LoadEntity(s, codec, t, token, NoFault, outcome).record
            == codec.deserialize(s.tables[TableOf(t, token)].rows[0].data)
  {
    var rows := s.tables[TableOf(t, token)].rows;
    FifoOnIncreasingTable(s, t, token, 1, outcome);
    assert Payloads(rows[..1]) == [rows[0].data];
    DeserializeOne(codec.deserialize, rows[0].data);
  }

  /**
   `loadEntity` on any table: it peeks at the one row that `ORDER BY time LIMIT 1` picks.
   The result is that row's decoded payload, and nothing when the table is empty, when the
   row holds no blob, or when the `SELECT` stops before its first row.
   */
  lemma LoadEntityPeeksEarliest<R>(s: Store, codec: Codec<R>, t: PersistenceType, token: string,
                                   fault: SelectFault, outcome: OpenOutcome)
    requires s.connection == Live && TableOf(t, token) in s.tables
    ensures var tbl := s.tables[TableOf(t, token)];
      var r := LoadEntity(s, codec, t, token, fault, outcome).record;
      && (|tbl.rows| == 0 || fault == PrepareFails || fault == StepFailsAfter(0) ==> r.None?)
      && (0 < |tbl.rows| && (fault == NoFault || (fault.StepFailsAfter? && 0 < fault.rowsStepped)) ==>
            var picked := SelectEarliest(tbl, 1);
            && |picked| == 1
            && r == (if |picked[0].data| == 0 then None else codec.deserialize(picked[0].data)))
  {
    var tbl := s.tables[TableOf(t, token)];
    var picked := SelectEarliest(tbl, 1);
    if fault != PrepareFails {
      ReadPayloads(s, t, token, 1, fault, outcome);
      var visited := Stepped(picked, fault);
      PeekOfVisited(codec.deserialize, visited);
      if 0 < |tbl.rows| && (fault == NoFault || (fault.StepFailsAfter? && 0 < fault.rowsStepped)) {
        assert |visited| == 1 && visited[0] == picked[0];
      }
    }
  }

  /** The record peeked from the rows a batch of one steps through. */
  lemma PeekOfVisited<R>(deserialize: Bytes -> Option<R>, visited: seq<Row>)
    requires |visited| <= 1
    ensures FirstOf(DeserializeAll(deserialize, Blobs(visited)))
            == if |visited| == 0 || |visited[0].data| == 0 then None else deserialize(visited[0].data)
  {
    if |visited| == 1 {
      assert visited[1..] == [];
      DeserializeOne(deserialize, visited[0].data);
    }
  }

  /** A malformed payload among well-formed ones costs exactly its own record and nothing else. */
  lemma DropsOnlyMalformed<R>(deserialize: Bytes -> Option<R>, a: seq<Bytes>, bad: Bytes, b: seq<Bytes>)
    requires forall j :: 0 <= j < |a| ==> deserialize(a[j]).Some?
    requires forall j :: 0 <= j < |b| ==> deserialize(b[j]).Some?
    requires deserialize(bad).None?
    ensures DeserializeAll(deserialize, a + [bad] + b) == DeserializeAll(deserialize, a) + DeserializeAll(deserialize, b)
    ensures |DeserializeAll(deserialize, a + [bad] + b)| == |a| + |b|
  {
    var da, db := DeserializeAll(deserialize, a), DeserializeAll(deserialize, b);
    DeserializeAllAppend(deserialize, a + [bad], b);
    DeserializeAllAppend(deserialize, a, [bad]);
    DeserializeOne(deserialize, bad);
    assert DeserializeAll(deserialize, a + [bad]) == da;
    DeserializeAllDecodable(deserialize, a);
    DeserializeAllDecodable(deserialize, b);
    assert |da + db| == |a| + |b|;
  }

  /** The codec writes `x` as a non-empty payload and reads that payload back as `x`. */
  ghost predicate RoundTrips<R>(codec: Codec<R>, x: R)
  {
    && codec.serialize(x).Some?
    && 0 < |codec.serialize(x).value|
    && codec.deserialize(codec.serialize(x).value) == Some(x)
  }

  lemma SaveAppends<R>(s: Store, codec: Codec<R>, x: R, t: PersistenceType, token: string, now: Time,
                       outcome: OpenOutcome)
    requires s.connection == Live && TableOf(t, token) in s.tables && RoundTrips(codec, x)
    ensures SaveEntity(s, codec, x, t, token, now, false, outcome)
            == s.(tables := s.tables[TableOf(t, token) :=
                    Append(s.tables[TableOf(t, token)], codec.serialize(x).value, now)])
  {
    InsertAppends(s, t, token, codec.serialize(x).value, now, outcome);
  }

  /** Saving three round-tripping records in order into an empty table, with an advancing clock. */
  lemma SaveThree<R>(s: Store, codec: Codec<R>, t: PersistenceType, token: string, a: R, b: R, c: R,
                     t1: Time, t2: Time, t3: Time, outcome: OpenOutcome)
    requires s.connection == Live && TableOf(t, token) in s.tables
    requires s.tables[TableOf(t, token)].rows == []
    requires RoundTrips(codec, a) && RoundTrips(codec, b) && RoundTrips(codec, c)
    requires t1 < t2 < t3
    ensures var s3 := SaveEntity(SaveEntity(SaveEntity(s, codec, a, t, token, t1, false, outcome),
                                            codec, b, t, token, t2, false, outcome),
                                 codec, c, t, token, t3, false, outcome);
      && s3.connection == Live && TableOf(t, token) in s3.tables
      && var rows := s3.tables[TableOf(t, token)].rows;
      && |rows| == 3
      && rows[0].data == codec.serialize(a).value
      && rows[1].data == codec.serialize(b).value
      && rows[2].data == codec.serialize(c).value
      && TimeIncreasing(rows) && AllHavePayload(rows)
  {
    var name := TableOf(t, token);
    var s1 := SaveEntity(s, codec, a, t, token, t1, false, outcome);
    var s2 := SaveEntity(s1, codec, b, t, token, t2, false, outcome);
    var s3 := SaveEntity(s2, codec, c, t, token, t3, false, outcome);
    var da, db, dc := codec.serialize(a).value, codec.serialize(b).value, codec.serialize(c).value;
    SaveAppends(s, codec, a, t, token, t1, outcome);
    SaveAppends(s1, codec, b, t, token, t2, outcome);
    SaveAppends(s2, codec, c, t, token, t3, outcome);
    AppendKeepsIncreasing(s.tables[name], da, t1 - 1.0, t1);
    AppendKeepsIncreasing(s1.tables[name], db, t1, t2);
    AppendKeepsIncreasing(s2.tables[name], dc, t2, t3);
    AppendKeepsPayload(s.tables[name], da, t1);
    AppendKeepsPayload(s1.tables[name], db, t2);
    AppendKeepsPayload(s2.tables[name], dc, t3);
    var rows := s3.tables[name].rows;
    assert |rows| == 3;
    assert rows[0].data == da && rows[1].data == db && rows[2].data == dc by {
      assert s2.tables[name].rows == rows[..2];
      assert s1.tables[name].rows == s2.tables[name].rows[..1];
    }
  }

  /**
   The drain cycle on three records saved in order into an empty table with an advancing
   clock: a batch of two loads the first two, removing a batch of two leaves the third,
   and the next batch of two loads just the third.
   */
  lemma DrainInOrder<R>(s: Store, codec: Codec<R>, t: PersistenceType, token: string, a: R, b: R, c: R,
                        t1: Time, t2: Time, t3: Time, outcome: OpenOutcome)
    requires s.connection == Live && TableOf(t, token) in s.tables
    requires s.tables[TableOf(t, token)].rows == []
    requires RoundTrips(codec, a) && RoundTrips(codec, b) && RoundTrips(codec, c)
    requires t1 < t2 < t3
    ensures var s3 := SaveEntity(SaveEntity(SaveEntity(s, codec, a, t, token, t1, false, outcome),
                                            codec, b, t, token, t2, false, outcome),
                                 codec, c, t, token, t3, false, outcome);
      var s4 := RemoveEventsInBatch(s3, t, token, false, outcome, 2);
      && LoadEntitiesInBatch(s3, codec, t, token, NoFault, outcome, 2).records == [a, b]
      && LoadEntitiesInBatch(s4, codec, t, token, NoFault, outcome, 2).records == [c]
  {
    var name := TableOf(t, token);
    var s3 := SaveEntity(SaveEntity(SaveEntity(s, codec, a, t, token, t1, false, outcome),
                                    codec, b, t, token, t2, false, outcome),
                         codec, c, t, token, t3, false, outcome);
    SaveThree(s, codec, t, token, a, b, c, t1, t2, t3, outcome);
    var rows := s3.tables[name].rows;
    var da, db, dc := codec.serialize(a).value, codec.serialize(b).value, codec.serialize(c).value;
    FirstTwoThenLast(s3, codec, t, token, outcome, rows, da, db, dc);
  }

  lemma FirstTwoThenLast<R>(s3: Store, codec: Codec<R>, t: PersistenceType, token: string, outcome: OpenOutcome,
                            rows: seq<Row>, da: Bytes, db: Bytes, dc: Bytes)
    requires s3.connection == Live && TableOf(t, token) in s3.tables
    requires rows == s3.tables[TableOf(t, token)].rows
    requires |rows| == 3 && rows[0].data == da && rows[1].data == db && rows[2].data == dc
    requires TimeIncreasing(rows) && AllHavePayload(rows)
    requires codec.deserialize(da).Some? && codec.deserialize(db).Some? && codec.deserialize(dc).Some?
    ensures var s4 := RemoveEventsInBatch(s3, t, token, false, outcome, 2);
      && LoadEntitiesInBatch(s3, codec, t, token, NoFault, outcome, 2).records
         == [codec.deserialize(da).value, codec.deserialize(db).value]
      && LoadEntitiesInBatch(s4, codec, t, token, NoFault, outcome, 2).records == [codec.deserialize(dc).value]
  {
    FirstBatch(s3, codec, t, token, outcome, rows, da, db);
    var s4 := RemoveEventsInBatch(s3, t, token, false, outcome, 2);
    RemoveFirstTwo(s3, t, token, outcome, rows);
    LastOne(s4, codec, t, token, outcome, rows[2..], dc);
  }

  lemma FirstBatch<R>(s3: Store, codec: Codec<R>, t: PersistenceType, token: string, outcome: OpenOutcome,
                      rows: seq<Row>, da: Bytes, db: Bytes)
    requires s3.connection == Live && TableOf(t, token) in s3.tables
    requires rows == s3.tables[TableOf(t, token)].rows
    requires |rows| == 3 && rows[0].data == da && rows[1].data == db
    requires TimeIncreasing(rows) && AllHavePayload(rows)
    requires codec.deserialize(da).Some? && codec.deserialize(db).Some?
    ensures LoadEntitiesInBatch(s3, codec, t, token, NoFault, outcome, 2).records
            == [codec.deserialize(da).value, codec.deserialize(db).value]
  {
    LoadOrdered(s3, codec, t, token, 2, outcome);
    assert LimitCount(2, |rows|) == 2;
    PayloadsOfFirstTwo(rows);
    DecodeTwo(codec.deserialize, da, db);
  }

  /** The load half of `LoadThenRemove`, on its own. */
  lemma LoadOrdered<R>(s: Store, codec: Codec<R>, t: PersistenceType, token: string, batchSize: int,
                       outcome: OpenOutcome)
    requires s.connection == Live && TableOf(t, token) in s.tables
    requires TimeIncreasing(s.tables[TableOf(t, token)].rows)
    requires AllHavePayload(s.tables[TableOf(t, token)].rows)
    ensures var rows := s.tables[TableOf(t, token)].rows;
      LoadEntitiesInBatch(s, codec, t, token, NoFault, outcome, batchSize).records
      == DeserializeAll(codec.deserialize, Payloads(rows[..LimitCount(batchSize, |rows|)]))
  {
    FifoOnIncreasingTable(s, t, token, batchSize, outcome);
  }

  lemma PayloadsOfFirstTwo(rows: seq<Row>)
    requires 2 <= |rows|
    ensures Payloads(rows[..2]) == [rows[0].data, rows[1].data]
  {
    var p := Payloads(rows[..2]);
    assert |p| == 2 && p[0] == rows[0].data && p[1] == rows[1].data;
  }

  lemma DecodeTwo<R>(deserialize: Bytes -> Option<R>, da: Bytes, db: Bytes)
    requires deserialize(da).Some? && deserialize(db).Some?
    ensures DeserializeAll(deserialize, [da, db]) == [deserialize(da).value, deserialize(db).value]
  {
    assert [da, db] == [da] + [db];
    DeserializeAllAppend(deserialize, [da], [db]);
    DeserializeOne(deserialize, da);
    DeserializeOne(deserialize, db);
  }

  lemma RemoveFirstTwo(s3: Store, t: PersistenceType, token: string, outcome: OpenOutcome, rows: seq<Row>)
    requires s3.connection == Live && TableOf(t, token) in s3.tables
    requires rows == s3.tables[TableOf(t, token)].rows
    requires |rows| == 3 && TimeIncreasing(rows)
    ensures var s4 := RemoveEventsInBatch(s3, t, token, false, outcome, 2);
      && s4.connection == Live && TableOf(t, token) in s4.tables
      && s4.tables[TableOf(t, token)].rows == rows[2..]
  {
    var tbl := s3.tables[TableOf(t, token)];
    DeleteLeaves(s3, t, token, 2, outcome);
    SelectDeleteOrdered(tbl, 2);
    assert LimitCount(2, |rows|) == 2;
  }

  lemma LastOne<R>(s4: Store, codec: Codec<R>, t: PersistenceType, token: string, outcome: OpenOutcome,
                   left: seq<Row>, dc: Bytes)
    requires s4.connection == Live && TableOf(t, token) in s4.tables
    requires left == s4.tables[TableOf(t, token)].rows
    requires |left| == 1 && left[0].data == dc && 0 < |dc| && codec.deserialize(dc).Some?
    ensures LoadEntitiesInBatch(s4, codec, t, token, NoFault, outcome, 2).records == [codec.deserialize(dc).value]
  {
    LoadThenRemove(s4, codec, t, token, 2, outcome);
    assert Payloads(left[..1]) == [dc];
    DeserializeOne(codec.deserialize, dc);
  }
}

=== FILE: rows.dfy ===
/**
 Rows of one physical table `(id integer primary key autoincrement, data blob, time real)`
 and the row selections the engine's SQL performs on them:
 `SELECT id FROM t ORDER BY time LIMIT n` picks the earliest rows by time, and the outer
 `DELETE ... WHERE id IN (...)` / `SELECT data ... WHERE id IN (...)` filter the table by
 that id set, keeping table (rowid) order.
 */
module Rows {

  newtype Byte = b: int | 0 <= b < 256

  type Bytes = seq<Byte>

  /** The `time` column. Only its order matters, so any totally ordered type would do. */
  type Time = real

  datatype Row = Row(id: nat, data: Bytes, time: Time)

  /** AUTOINCREMENT hands out ids in increasing order, and rows stay in id order. */
  predicate IdsIncreasing(rows: seq<Row>)
  {
    forall i, j :: 0 <= i < j < |rows| ==> rows[i].id < rows[j].id
  }

  predicate IdsAtMost(rows: seq<Row>, bound: nat)
  {
    forall i :: 0 <= i < |rows| ==> rows[i].id <= bound
  }

  predicate IdsDistinct(rows: seq<Row>)
  {
    forall i, j :: 0 <= i < |rows| && 0 <= j < |rows| && i != j ==> rows[i].id != rows[j].id
  }

  /** A table's rows together with its AUTOINCREMENT counter (the largest id ever issued). */
  datatype TableState = TableState(rows: seq<Row>, lastId: nat)

  predicate ValidTable(t: TableState)
  {
    IdsIncreasing(t.rows) && IdsAtMost(t.rows, t.lastId)
  }

  type Table = t: TableState | ValidTable(t) witness TableState([], 0)

  /** The table `CREATE TABLE` makes: no rows, no id issued yet. */
  const EmptyTable: Table := TableState([], 0)

  function Ids(rows: seq<Row>): (ids: set<nat>)
  {
    set i | 0 <= i < |rows| :: rows[i].id
  }

  /** Times strictly increase in table order: what a clock that always advances produces. */
  predicate TimeIncreasing(rows: seq<Row>)
  {
    forall i, j :: 0 <= i < j < |rows| ==> rows[i].time < rows[j].time
  }

  /** Every row holds a non-empty payload: the only kind of row `insertRow` writes. */
  predicate AllHavePayload(rows: seq<Row>)
  {
    forall i :: 0 <= i < |rows| ==> |rows[i].data| > 0
  }

  /** No time in `rows` is later than `clock`. */
  predicate TimesAtMost(rows: seq<Row>, clock: Time)
  {
    forall i :: 0 <= i < |rows| ==> rows[i].time <= clock
  }

  lemma IncreasingIsDistinct(rows: seq<Row>)
    requires IdsIncreasing(rows)
    ensures IdsDistinct(rows)
  {
    forall i, j | 0 <= i < |rows| && 0 <= j < |rows| && i != j
      ensures rows[i].id != rows[j].id
    {
      if i < j {
        assert rows[i].id < rows[j].id;
      } else {
        assert rows[j].id < rows[i].id;
      }
    }
  }

  /**
   The row `INSERT` adds at the end: the payload, the supplied time, and the id one above
   every id AUTOINCREMENT has ever issued for the table.
   */
  function Append(t: Table, data: Bytes, now: Time): (t': Table)
    ensures |t'.rows| == |t.rows| + 1
    ensures t'.rows[..|t.rows|] == t.rows
    ensures t'.rows[|t.rows|].data == data && t'.rows[|t.rows|].time == now
    ensures t'.rows[|t.rows|].id !in Ids(t.rows)
    ensures t'.lastId == t.lastId + 1 && t'.rows[|t.rows|].id == t'.lastId
  {
    var row := Row(t.lastId + 1, data, now);
    TableState(t.rows + [row], t.lastId + 1)
  }

  /** Appending a non-empty payload keeps every row's payload non-empty. */
  lemma AppendKeepsPayload(t: Table, data: Bytes, now: Time)
    requires AllHavePayload(t.rows) && 0 < |data|
    ensures AllHavePayload(Append(t, data, now).rows)
  {
    var after := Append(t, data, now).rows;
    forall i | 0 <= i < |after| ensures |after[i].data| > 0 {
      if i < |t.rows| {
        assert after[..|t.rows|][i] == t.rows[i];
      }
    }
  }

  /** A clock that has moved past every stored time keeps times increasing when a row is appended. */
  lemma AppendKeepsIncreasing(t: Table, data: Bytes, clock: Time, now: Time)
    requires TimeIncreasing(t.rows) && TimesAtMost(t.rows, clock) && clock < now
    ensures TimeIncreasing(Append(t, data, now).rows) && TimesAtMost(Append(t, data, now).rows, now)
  {
    var after := Append(t, data, now).rows;
    assert forall i :: 0 <= i < |t.rows| ==> after[i] == t.rows[i] by {
      forall i | 0 <= i < |t.rows| ensures after[i] == t.rows[i] {
        assert after[..|t.rows|][i] == t.rows[i];
      }
    }
  }

  /** SQLite's `LIMIT n` on a table of `size` rows: a negative limit means no limit. */
  function LimitCount(n: int, size: nat): (k: nat)
    ensures k <= size
    ensures n < 0 ==> k == size
    ensures 0 <= n ==> k == if n < size then n else size
  {
    if n < 0 || n >= size then size else n
  }

  /**
   The reference meaning of "the `k` earliest rows by time": an id set of the right size
   drawn from the table such that no chosen row is later than a row left out. Which of
   several rows with equal times is chosen is left open, as `ORDER BY time` leaves it.
   */
  ghost predicate IsEarliest(rows: seq<Row>, chosen: set<nat>, k: nat)
  {
    && chosen <= Ids(rows)
    && |chosen| == (if k < |rows| then k else |rows|)
    && forall i, j :: 0 <= i < |rows| && 0 <= j < |rows| && rows[i].id in chosen && rows[j].id !in chosen
         ==> rows[i].time <= rows[j].time
  }

  /** Position of the first row with the smallest time. */
  function IndexOfMin(rows: seq<Row>): (k: nat)
    requires |rows| > 0
    ensures k < |rows|
    ensures forall j :: 0 <= j < |rows| ==> rows[k].time <= rows[j].time
    ensures forall j :: 0 <= j < k ==> rows[k].time < rows[j].time
  {
    if |rows| == 1 then 0
    else
      var m := IndexOfMin(rows[1..]) + 1;
      if rows[0].time <= rows[m].time then 0 else m
  }

  function RemoveAt(rows: seq<Row>, k: nat): (rest: seq<Row>)
    requires k < |rows|
    ensures |rest| == |rows| - 1
  {
    rows[..k] + rows[k + 1..]
  }

  lemma RemoveAtIndex(rows: seq<Row>, k: nat)
    requires k < |rows|
    ensures forall i {:trigger RemoveAt(rows, k)[i]} :: 0 <= i < k ==> RemoveAt(rows, k)[i] == rows[i]
    ensures forall i :: k <= i < |rows| - 1 ==> RemoveAt(rows, k)[i] == rows[i + 1]
  {
  }

  /**
   One concrete choice of the `k` earliest rows: repeatedly take the first row with the
   smallest time. This is the selection the model uses for `ORDER BY time LIMIT k`; its
   contract is the reference meaning, whatever the tie-break.
   */
  function Earliest(rows: seq<Row>, k: nat): (chosen: set<nat>)
    requires IdsDistinct(rows)
    ensures IsEarliest(rows, chosen, k)
    decreases |rows|
  {
    if k == 0 || |rows| == 0 then {}
    else
      var m := IndexOfMin(rows);
      var rest := RemoveAt(rows, m);
      RemoveAtIds(rows, m);
      var sub := Earliest(rest, k - 1);
      EarliestSeparated(rows, m, rest, sub);
      assert rows[m].id !in sub;
      {rows[m].id} + sub
  }

  lemma RemoveAtIds(rows: seq<Row>, m: nat)
    requires m < |rows| && IdsDistinct(rows)
    ensures IdsDistinct(RemoveAt(rows, m))
    ensures Ids(RemoveAt(rows, m)) == Ids(rows) - {rows[m].id}
  {
    var rest := RemoveAt(rows, m);
    RemoveAtIndex(rows, m);
    forall x | x in Ids(rest) ensures x in Ids(rows) - {rows[m].id} {
      var i :| 0 <= i < |rest| && rest[i].id == x;
      if i < m { assert rows[i] == rest[i]; } else { assert rows[i + 1] == rest[i]; }
    }
    forall x | x in Ids(rows) - {rows[m].id} ensures x in Ids(rest) {
      var i :| 0 <= i < |rows| && rows[i].id == x;
      if i < m { assert rest[i] == rows[i]; } else { assert rest[i - 1] == rows[i]; }
    }
    forall i, j | 0 <= i < |rest| && 0 <= j < |rest| && i != j
      ensures rest[i].id != rest[j].id
    {
      var i' := if i < m then i else i + 1;
      var j' := if j < m then j else j + 1;
      assert rest[i] == rows[i'] && rest[j] == rows[j'];
    }
  }

  /** Induction step of `Earliest`: adding the minimum to an earliest set of the rest. */
  lemma EarliestSeparated(rows: seq<Row>, m: nat, rest: seq<Row>, sub: set<nat>)
    requires m < |rows| && IdsDistinct(rows) && rest == RemoveAt(rows, m)
    requires forall j :: 0 <= j < |rows| ==> rows[m].time <= rows[j].time
    requires forall i, j :: 0 <= i < |rest| && 0 <= j < |rest| && rest[i].id in sub && rest[j].id !in sub
               ==> rest[i].time <= rest[j].time
    ensures forall i, j ::
              (0 <= i < |rows| && 0 <= j < |rows| && rows[i].id in {rows[m].id} + sub && rows[j].id !in {rows[m].id} + sub)
              ==> rows[i].time <= rows[j].time
  {
    RemoveAtIndex(rows, m);
    forall i, j | 0 <= i < |rows| && 0 <= j < |rows| && rows[i].id in {rows[m].id} + sub
      && rows[j].id !in {rows[m].id} + sub
      ensures rows[i].time <= rows[j].time
    {
      if i != m {
        assert j != m;
        var i' := if i < m then i else i - 1;
        var j' := if j < m then j else j - 1;
        assert rest[i'] == rows[i];
        assert rest[j'] == rows[j];
      }
    }
  }

  /** When all times differ, the `k` earliest rows are determined uniquely. */
  lemma EarliestUnique(rows: seq<Row>, a: set<nat>, b: set<nat>, k: nat)
    requires IdsDistinct(rows)
    requires forall i, j :: 0 <= i < |rows| && 0 <= j < |rows| && i != j ==> rows[i].time != rows[j].time
    requires IsEarliest(rows, a, k) && IsEarliest(rows, b, k)
    ensures a == b
  {
    if a != b {
      SameSizeDifference(a, b);
      assert false;
    }
  }

  /** Two different sets of one size each hold an element the other lacks. */
  lemma SameSizeDifference(a: set<nat>, b: set<nat>)
    requires |a| == |b| && a != b
    ensures exists x, y :: x in a - b && y in b - a
  {
    assert |a| == |a - b| + |a * b| by { assert a == (a - b) + (a * b); }
    assert |b| == |b - a| + |a * b| by { assert b == (b - a) + (a * b); }
  }

  lemma TailFacts(rows: seq<Row>)
    requires |rows| > 0
    ensures IdsDistinct(rows) ==> IdsDistinct(rows[1..])
    ensures RemoveAt(rows, 0) == rows[1..]
  {
    var tail := rows[1..];
    if IdsDistinct(rows) {
      forall i, j | 0 <= i < |tail| && 0 <= j < |tail| && i != j ensures tail[i].id != tail[j].id {
        assert tail[i] == rows[i + 1] && tail[j] == rows[j + 1];
      }
    }
  }

  /** The number of distinct ids of a table is its number of rows. */
  lemma {:induction false} IdsCount(rows: seq<Row>)
    requires IdsDistinct(rows)
    ensures |Ids(rows)| == |rows|
  {
    if |rows| == 0 {
      assert Ids(rows) == {};
    } else {
      TailFacts(rows);
      IdsCount(rows[1..]);
      IdsCons(rows);
    }
  }

  /** In a table with distinct ids, a row's id is among the first `m` rows' ids iff the row is. */
  lemma PrefixIdsMember(rows: seq<Row>, m: nat, i: nat)
    requires IdsDistinct(rows) && m <= |rows| && i < |rows|
    ensures rows[i].id in Ids(rows[..m]) <==> i < m
  {
    var front := rows[..m];
    if i < m {
      assert front[i] == rows[i];
    }
  }

  /**
   When times strictly increase along the table, the earliest `k` rows are its first `k`
   rows, whatever tie-break the selection uses: the earliest set is then unique.
   */
  lemma EarliestOfIncreasing(rows: seq<Row>, k: nat)
    requires IdsDistinct(rows) && TimeIncreasing(rows)
    ensures forall i :: 0 <= i < |rows| ==> (rows[i].id in Earliest(rows, k) <==> i < k)
  {
    var m := if k < |rows| then k else |rows|;
    var front := rows[..m];
    var prefix := Ids(front);
    assert IdsDistinct(front) by {
      forall i, j | 0 <= i < |front| && 0 <= j < |front| && i != j ensures front[i].id != front[j].id {
        assert front[i] == rows[i] && front[j] == rows[j];
      }
    }
    IdsCount(front);
    forall i | 0 <= i < |rows| ensures rows[i].id in prefix <==> i < m {
      PrefixIdsMember(rows, m, i);
    }
    assert prefix <= Ids(rows) by {
      forall x | x in prefix ensures x in Ids(rows) {
        var j :| 0 <= j < |front| && front[j].id == x;
        assert rows[j] == front[j];
      }
    }
    assert IsEarliest(rows, prefix, k);
    TimesDistinct(rows);
    EarliestUnique(rows, prefix, Earliest(rows, k), k);
  }

  lemma TimesDistinct(rows: seq<Row>)
    requires TimeIncreasing(rows)
    ensures forall i, j :: 0 <= i < |rows| && 0 <= j < |rows| && i != j ==> rows[i].time != rows[j].time
  {
    forall i, j | 0 <= i < |rows| && 0 <= j < |rows| && i != j
      ensures rows[i].time != rows[j].time
    {
      if i < j {
        assert rows[i].time < rows[j].time;
      } else {
        assert rows[j].time < rows[i].time;
      }
    }
  }

  /** The rows whose id is NOT in `ids`, in table order: what `DELETE ... WHERE id IN (ids)` leaves. */
  function Without(rows: seq<Row>, ids: set<nat>): (kept: seq<Row>)
    ensures |kept| <= |rows|
    ensures forall i :: 0 <= i < |kept| ==> kept[i].id !in ids
  {
    if |rows| == 0 then []
    else if rows[0].id in ids then Without(rows[1..], ids)
    else [rows[0]] + Without(rows[1..], ids)
  }

  /** The rows whose id IS in `ids`, in table order: what `... WHERE id IN (ids)` selects. */
  function Within(rows: seq<Row>, ids: set<nat>): (picked: seq<Row>)
    ensures |picked| <= |rows|
    ensures forall i :: 0 <= i < |picked| ==> picked[i].id in ids
  {
    if |rows| == 0 then []
    else if rows[0].id in ids then [rows[0]] + Within(rows[1..], ids)
    else Within(rows[1..], ids)
  }

  /** Within and Without split a table: together they hold every row exactly once. */
  lemma {:induction false} SplitPartition(rows: seq<Row>, ids: set<nat>)
    ensures multiset(Within(rows, ids)) + multiset(Without(rows, ids)) == multiset(rows)
    ensures |Within(rows, ids)| + |Without(rows, ids)| == |rows|
  {
    if |rows| > 0 {
      SplitPartition(rows[1..], ids);
      assert rows == [rows[0]] + rows[1..];
    }
  }

  predicate IdsAbove(rows: seq<Row>, bound: nat)
  {
    forall i :: 0 <= i < |rows| ==> rows[i].id > bound
  }

  lemma {:induction false} WithoutBounds(rows: seq<Row>, ids: set<nat>, low: nat, high: nat)
    ensures IdsAbove(rows, low) ==> IdsAbove(Without(rows, ids), low)
    ensures IdsAtMost(rows, high) ==> IdsAtMost(Without(rows, ids), high)
  {
    if |rows| > 0 {
      WithoutBounds(rows[1..], ids, low, high);
      assert IdsAbove(rows, low) ==> IdsAbove(rows[1..], low);
      assert IdsAtMost(rows, high) ==> IdsAtMost(rows[1..], high);
    }
  }

  /** Filtering keeps ids increasing and bounded, so the rows left by a delete still form a table. */
  lemma {:induction false} WithoutKeepsIds(rows: seq<Row>, ids: set<nat>, bound: nat)
    requires IdsIncreasing(rows) && IdsAtMost(rows, bound)
    ensures IdsIncreasing(Without(rows, ids)) && IdsAtMost(Without(rows, ids), bound)
  {
    WithoutBounds(rows, ids, 0, bound);
    if |rows| > 0 {
      var tail := rows[1..];
      assert IdsIncreasing(tail) && IdsAtMost(tail, bound);
      WithoutKeepsIds(tail, ids, bound);
      var w := Without(tail, ids);
      if rows[0].id !in ids {
        assert IdsAbove(tail, rows[0].id) by {
          forall i | 0 <= i < |tail| ensures tail[i].id > rows[0].id {
            assert tail[i] == rows[i + 1];
          }
        }
        WithoutBounds(tail, ids, rows[0].id, bound);
        var r := [rows[0]] + w;
        forall i, j | 0 <= i < j < |r| ensures r[i].id < r[j].id {
          assert r[j] == w[j - 1];
          if i > 0 {
            assert r[i] == w[i - 1];
          }
        }
      }
    }
  }

  /** With distinct ids, filtering by a set of ids picks one row per id of the table in the set. */
  lemma {:induction false} WithinSize(rows: seq<Row>, ids: set<nat>)
    requires IdsDistinct(rows)
    ensures |Within(rows, ids)| == |ids * Ids(rows)|
  {
    if |rows| == 0 {
      assert Ids(rows) == {};
      assert ids * Ids(rows) == {};
    } else {
      TailFacts(rows);
      WithinSize(rows[1..], ids);
      SelectedIdsCons(rows, ids);
    }
  }

  lemma SelectedIdsCons(rows: seq<Row>, ids: set<nat>)
    requires |rows| > 0 && IdsDistinct(rows)
    ensures |ids * Ids(rows)| == (if rows[0].id in ids then 1 else 0) + |ids * Ids(rows[1..])|
  {
    IdsCons(rows);
    var x, rest := rows[0].id, ids * Ids(rows[1..]);
    if x in ids {
      assert ids * Ids(rows) == rest + {x};
      assert x !in rest;
    } else {
      assert ids * Ids(rows) == rest;
    }
  }

  /** The ids of a table are its first id and the ids of the rest, which with distinct ids do not hold the first. */
  lemma IdsCons(rows: seq<Row>)
    requires |rows| > 0
    ensures Ids(rows) == {rows[0].id} + Ids(rows[1..])
    ensures IdsDistinct(rows) ==> rows[0].id !in Ids(rows[1..])
  {
    var tail := rows[1..];
    forall x | x in Ids(rows) ensures x in {rows[0].id} + Ids(tail) {
      var i :| 0 <= i < |rows| && rows[i].id == x;
      if i > 0 { assert tail[i - 1] == rows[i]; }
    }
    forall x | x in Ids(tail) ensures x in Ids(rows) {
      var i :| 0 <= i < |tail| && tail[i].id == x;
      assert rows[i + 1] == tail[i];
    }
    if IdsDistinct(rows) {
      forall i | 0 <= i < |tail| ensures tail[i].id != rows[0].id {
        assert rows[i + 1] == tail[i];
      }
    }
  }

  /** When the id set marks exactly the first `k` positions, the filters cut the table at `k`. */
  lemma {:induction false} FilterOfPrefix(rows: seq<Row>, ids: set<nat>, k: nat)
    requires k <= |rows|
    requires forall i :: 0 <= i < |rows| ==> (rows[i].id in ids <==> i < k)
    ensures Without(rows, ids) == rows[k..]
    ensures Within(rows, ids) == rows[..k]
  {
    if |rows| > 0 {
      var tail := rows[1..];
      var k' := if k == 0 then 0 else k - 1;
      forall i | 0 <= i < |tail| ensures (tail[i].id in ids <==> i < k') {
        assert tail[i] == rows[i + 1];
      }
      FilterOfPrefix(tail, ids, k');
      if k > 0 {
        assert rows[..k] == [rows[0]] + tail[..k'];
        assert rows[k..] == tail[k'..];
      } else {
        assert rows[0].id !in ids;
        assert rows == [rows[0]] + tail;
      }
    }
  }

  lemma {:induction false} WithinBounds(rows: seq<Row>, ids: set<nat>, low: nat)
    ensures IdsAbove(rows, low) ==> IdsAbove(Within(rows, ids), low)
  {
    if |rows| > 0 {
      WithinBounds(rows[1..], ids, low);
      assert IdsAbove(rows, low) ==> IdsAbove(rows[1..], low);
    }
  }

  /** The rows a select picks come out in id order. */
  lemma {:induction false} WithinKeepsOrder(rows: seq<Row>, ids: set<nat>)
    requires IdsIncreasing(rows)
    ensures IdsIncreasing(Within(rows, ids))
  {
    if |rows| > 0 {
      var tail := rows[1..];
      assert IdsIncreasing(tail);
      WithinKeepsOrder(tail, ids);
      var w := Within(tail, ids);
      if rows[0].id in ids {
        assert IdsAbove(tail, rows[0].id) by {
          forall i | 0 <= i < |tail| ensures tail[i].id > rows[0].id {
            assert tail[i] == rows[i + 1];
          }
        }
        WithinBounds(tail, ids, rows[0].id);
        var r := [rows[0]] + w;
        forall i, j | 0 <= i < j < |r| ensures r[i].id < r[j].id {
          assert r[j] == w[j - 1];
          if i > 0 {
            assert r[i] == w[i - 1];
          }
        }
      }
    }
  }

  /**
   The rows `SELECT ... WHERE id IN (SELECT id FROM t ORDER BY time LIMIT n)` visits, in
   table (rowid) order: exactly `LIMIT n` rows of the table, none later than a row left out.
   */
  function SelectEarliest(t: Table, n: int): (picked: seq<Row>)
    ensures |picked| == LimitCount(n, |t.rows|)
    ensures multiset(picked) <= multiset(t.rows)
    ensures IdsIncreasing(picked)
    ensures forall a, b :: a in picked && b in multiset(t.rows) - multiset(picked) ==> a.time <= b.time
  {
    IncreasingIsDistinct(t.rows);
    var chosen := Earliest(t.rows, LimitCount(n, |t.rows|));
    var picked := Within(t.rows, chosen);
    SplitPartition(t.rows, chosen);
    WithinSize(t.rows, chosen);
    assert chosen * Ids(t.rows) == chosen;
    WithinKeepsOrder(t.rows, chosen);
    EarliestSplit(t.rows, chosen, LimitCount(n, |t.rows|));
    picked
  }

  /**
   The rows `DELETE FROM t WHERE id IN (SELECT id FROM t ORDER BY time LIMIT n)` leaves:
   the table loses exactly `LIMIT n` rows, and none of them is later than a row that stays.
   */
  function DeleteEarliest(t: Table, n: int): (t': Table)
    ensures t'.lastId == t.lastId
    ensures multiset(t'.rows) <= multiset(t.rows)
    ensures |t'.rows| == |t.rows| - LimitCount(n, |t.rows|)
    ensures forall a, b :: a in multiset(t.rows) - multiset(t'.rows) && b in t'.rows ==> a.time <= b.time
  {
    IncreasingIsDistinct(t.rows);
    var chosen := Earliest(t.rows, LimitCount(n, |t.rows|));
    var kept := Without(t.rows, chosen);
    SplitPartition(t.rows, chosen);
    WithinSize(t.rows, chosen);
    assert chosen * Ids(t.rows) == chosen;
    WithoutKeepsIds(t.rows, chosen, t.lastId);
    EarliestSplit(t.rows, chosen, LimitCount(n, |t.rows|));
    TableState(kept, t.lastId)
  }

  /** What selected and what stays apart are separated in time, when the id set is an earliest set. */
  lemma EarliestSplit(rows: seq<Row>, chosen: set<nat>, k: nat)
    requires IsEarliest(rows, chosen, k)
    requires multiset(Within(rows, chosen)) + multiset(Without(rows, chosen)) == multiset(rows)
    ensures forall a, b :: a in Within(rows, chosen) && b in Without(rows, chosen) ==> a.time <= b.time
  {
    var w, o := Within(rows, chosen), Without(rows, chosen);
    forall a, b | a in w && b in o ensures a.time <= b.time {
      assert a in multiset(rows) && b in multiset(rows);
      var i :| 0 <= i < |rows| && rows[i] == a;
      var j :| 0 <= j < |rows| && rows[j] == b;
      var i' :| 0 <= i' < |w| && w[i'] == a;
      var j' :| 0 <= j' < |o| && o[j'] == b;
      assert a.id in chosen && b.id !in chosen;
    }
  }

  /** The rows a delete removes are exactly the rows the matching select picks. */
  lemma SelectThenDelete(t: Table, n: int)
    ensures multiset(SelectEarliest(t, n)) + multiset(DeleteEarliest(t, n).rows) == multiset(t.rows)
  {
    IncreasingIsDistinct(t.rows);
    SplitPartition(t.rows, Earliest(t.rows, LimitCount(n, |t.rows|)));
  }

  /** When times increase along the table, a select picks its first `LIMIT n` rows and a delete leaves the rest. */
  lemma SelectDeleteOrdered(t: Table, n: int)
    requires TimeIncreasing(t.rows)
    ensures SelectEarliest(t, n) == t.rows[..LimitCount(n, |t.rows|)]
    ensures DeleteEarliest(t, n).rows == t.rows[LimitCount(n, |t.rows|)..]
  {
    IncreasingIsDistinct(t.rows);
    var k := LimitCount(n, |t.rows|);
    EarliestOfIncreasing(t.rows, k);
    FilterOfPrefix(t.rows, Earliest(t.rows, k), k);
  }

  /** When times increase and every row has a payload, the batch read is the first `LIMIT n` payloads in order. */
  lemma IncreasingBatch(t: Table, n: int)
    requires TimeIncreasing(t.rows) && AllHavePayload(t.rows)
    ensures Blobs(SelectEarliest(t, n)) == Payloads(t.rows[..LimitCount(n, |t.rows|)])
  {
    var lim := LimitCount(n, |t.rows|);
    SelectDeleteOrdered(t, n);
    var front := t.rows[..lim];
    assert AllHavePayload(front) by {
      forall i | 0 <= i < |front| ensures |front[i].data| > 0 {
        assert front[i] == t.rows[i];
      }
    }
    BlobsAllPresent(front);
  }

  /** Every row a delete leaves keeps its payload. */
  lemma DeleteKeepsPayload(t: Table, n: int)
    requires AllHavePayload(t.rows)
    ensures AllHavePayload(DeleteEarliest(t, n).rows)
  {
    PayloadOfSubset(DeleteEarliest(t, n).rows, t.rows);
  }

  /** AUTOINCREMENT never reissues an id: a row inserted after a delete gets an id above every id the table held. */
  lemma DeletedIdsNotReissued(t: Table, n: int, data: Bytes, now: Time)
    ensures var t' := Append(DeleteEarliest(t, n), data, now);
      forall i :: 0 <= i < |t.rows| ==> t.rows[i].id < t'.rows[|t'.rows| - 1].id
  {
    var d := DeleteEarliest(t, n);
    assert |Append(d, data, now).rows| - 1 == |d.rows|;
  }

  /** A delete keeps times increasing and bounded by the clock. */
  lemma DeleteKeepsIncreasing(t: Table, n: int, clock: Time)
    requires TimeIncreasing(t.rows) && TimesAtMost(t.rows, clock)
    ensures TimeIncreasing(DeleteEarliest(t, n).rows) && TimesAtMost(DeleteEarliest(t, n).rows, clock)
  {
    SelectDeleteOrdered(t, n);
    SuffixKeepsIncreasing(t.rows, LimitCount(n, |t.rows|), clock);
  }

  lemma SuffixKeepsIncreasing(rows: seq<Row>, k: nat, clock: Time)
    requires k <= |rows| && TimeIncreasing(rows) && TimesAtMost(rows, clock)
    ensures TimeIncreasing(rows[k..]) && TimesAtMost(rows[k..], clock)
  {
    var rest := rows[k..];
    assert forall i :: 0 <= i < |rest| ==> rest[i] == rows[i + k];
  }

  /** The payloads `readRows` returns for `rows`: `sqlite3_column_blob` gives NULL for an empty blob, so those are skipped. */
  function Blobs(rows: seq<Row>): (out: seq<Bytes>)
    ensures |out| <= |rows|
    ensures forall i :: 0 <= i < |out| ==> |out[i]| > 0
    ensures forall i :: 0 <= i < |out| ==> exists j :: 0 <= j < |rows| && rows[j].data == out[i]
    ensures AllHavePayload(rows) ==> |out| == |rows|
  {
    if |rows| == 0 then []
    else
      var rest := Blobs(rows[1..]);
      assert forall i :: 0 <= i < |rest| ==> exists j :: 0 <= j < |rows| && rows[j].data == rest[i] by {
        forall i | 0 <= i < |rest| ensures exists j :: 0 <= j < |rows| && rows[j].data == rest[i] {
          var j :| 0 <= j < |rows[1..]| && rows[1..][j].data == rest[i];
          assert rows[j + 1].data == rest[i];
        }
      }
      if |rows[0].data| > 0 then [rows[0].data] + rest else rest
  }

  /** The payloads of the rows, in table order. */
  function Payloads(rows: seq<Row>): (out: seq<Bytes>)
    ensures |out| == |rows|
    ensures forall i :: 0 <= i < |rows| ==> out[i] == rows[i].data
  {
    if |rows| == 0 then [] else [rows[0].data] + Payloads(rows[1..])
  }

  /** When every row has a payload, nothing is skipped: the blobs are the payloads in table order. */
  lemma {:induction false} BlobsAllPresent(rows: seq<Row>)
    requires AllHavePayload(rows)
    ensures Blobs(rows) == Payloads(rows)
  {
    if |rows| > 0 {
      assert AllHavePayload(rows[1..]) by {
        forall i | 0 <= i < |rows| - 1 ensures |rows[1..][i].data| > 0 {
          assert rows[1..][i] == rows[i + 1];
        }
      }
      BlobsAllPresent(rows[1..]);
    }
  }

  /** Rows drawn from rows that all have a payload have one too. */
  lemma PayloadOfSubset(sub: seq<Row>, rows: seq<Row>)
    requires multiset(sub) <= multiset(rows) && AllHavePayload(rows)
    ensures AllHavePayload(sub)
  {
    forall i | 0 <= i < |sub| ensures |sub[i].data| > 0 {
      assert sub[i] in multiset(sub);
      assert sub[i] in rows;
    }
  }

  /** Blobs distributes over concatenation, so read order follows table order. */
  lemma {:induction false} BlobsAppend(a: seq<Row>, b: seq<Row>)
    ensures Blobs(a + b) == Blobs(a) + Blobs(b)
  {
    if |a| == 0 {
      assert a + b == b;
    } else {
      assert (a + b)[1..] == a[1..] + b;
      BlobsAppend(a[1..], b);
    }
  }
}

=== FILE: runs.dfy ===
/**
 Sequences of calls into the storage engine, and what holds along every such sequence:
 the connection pointer, once set, is only cleared by an `open()` that cannot allocate a
 handle; every stored row keeps a payload; and with a clock that moves forward, every
 table stays in insertion order, so reads and deletes are first in, first out.
 */
module Runs {
  import opened Rows
  import opened Categories
  import opened Mpdb
  import opened MpdbLemmas

  /** One call into `MPDB`, with the inputs the environment decides. */
  datatype Call =
    | OpenCall(outcome: OpenOutcome)
    | CloseCall
    | CreateCall(t: PersistenceType, token: string, fails: bool, outcome: OpenOutcome)
    | InsertCall(t: PersistenceType, token: string, data: Bytes, now: Time, fails: bool, outcome: OpenOutcome)
    | DeleteCall(t: PersistenceType, token: string, numRows: int, fails: bool, outcome: OpenOutcome)
    | ReadCall(t: PersistenceType, token: string, numRows: int, fault: SelectFault, outcome: OpenOutcome)

  /** The store after one call of the connection's API. */
  function Step(s: Store, c: Call): (after: Store)
  {
    match c
    case OpenCall(outcome) => Open(s, outcome)
    case CloseCall => Close(s)
    case CreateCall(t, token, fails, outcome) => CreateTable(s, t, token, fails, outcome)
    case InsertCall(t, token, data, now, fails, outcome) => InsertRow(s, t, token, data, now, fails, outcome)
    case DeleteCall(t, token, numRows, fails, outcome) => DeleteRows(s, t, token, numRows, fails, outcome)
    case ReadCall(t, token, numRows, fault, outcome) => ReadRows(s, t, token, numRows, fault, outcome).store
  }

  /** The store after a sequence of calls, made one after another. */
  function Run(s: Store, calls: seq<Call>): (after: Store)
    decreases |calls|
  {
    if |calls| == 0 then s else Run(Step(s, calls[0]), calls[1..])
  }

  /** Every `open()` a call may make gets a handle, whether or not the file opens. */
  predicate AlwaysAllocates(calls: seq<Call>)
  {
    forall i :: 0 <= i < |calls| ==> calls[i].CloseCall? || calls[i].outcome != NoMemory
  }

  /**
   A call leaves the pointer empty only when `open()` could not allocate a handle, or when
   a `close()` finds it empty already.
   */
  lemma StepClearsOnlyOnNoMemory(s: Store, c: Call)
    ensures Step(s, c).connection == Nil ==>
      (c.CloseCall? && s.connection == Nil) || (!c.CloseCall? && c.outcome == NoMemory)
  {
  }

  /**
   Since `close()` never clears the pointer, once it is set the "no connection" branch of
   every operation is unreachable, unless an `open()` runs out of memory.
   */
  lemma {:induction false} ConnectionStaysSet(s: Store, calls: seq<Call>)
    requires s.connection != Nil && AlwaysAllocates(calls)
    ensures Run(s, calls).connection != Nil
    decreases |calls|
  {
    if |calls| > 0 {
      StepClearsOnlyOnNoMemory(s, calls[0]);
      assert AlwaysAllocates(calls[1..]) by {
        forall i | 0 <= i < |calls[1..]| ensures calls[1..][i].CloseCall? || calls[1..][i].outcome != NoMemory {
          assert calls[1..][i] == calls[i + 1];
        }
      }
      ConnectionStaysSet(Step(s, calls[0]), calls[1..]);
    }
  }

  /** Every stored row holds a non-empty payload. */
  predicate StorePayloads(s: Store)
  {
    forall name :: name in s.tables ==> AllHavePayload(s.tables[name].rows)
  }

  lemma StepKeepsPayloads(s: Store, c: Call)
    requires StorePayloads(s)
    ensures StorePayloads(Step(s, c))
  {
    match c
    case InsertCall(t, token, data, now, fails, outcome) =>
      InsertStepPayloads(s, t, token, data, now, fails, outcome);
    case DeleteCall(t, token, numRows, fails, outcome) =>
      DeleteStepPayloads(s, t, token, numRows, fails, outcome);
    case _ =>
  }

  lemma InsertStepPayloads(s: Store, t: PersistenceType, token: string, data: Bytes, now: Time, fails: bool,
                           outcome: OpenOutcome)
    requires StorePayloads(s)
    ensures StorePayloads(InsertRow(s, t, token, data, now, fails, outcome))
  {
    var r := InsertRow(s, t, token, data, now, fails, outcome);
    var name := TableOf(t, token);
    if s.connection == Live && !fails && 0 < |data| && name in s.tables {
      InsertAppends(s, t, token, data, now, outcome);
      AppendKeepsPayload(s.tables[name], data, now);
      forall n | n in r.tables ensures AllHavePayload(r.tables[n].rows) {
        if n != name {
          assert r.tables[n] == s.tables[n];
        }
      }
    } else {
      assert r.tables == s.tables || r.tables == map[];
    }
  }

  lemma DeleteStepPayloads(s: Store, t: PersistenceType, token: string, numRows: int, fails: bool,
                           outcome: OpenOutcome)
    requires StorePayloads(s)
    ensures StorePayloads(DeleteRows(s, t, token, numRows, fails, outcome))
  {
    var r := DeleteRows(s, t, token, numRows, fails, outcome);
    var name := TableOf(t, token);
    if s.connection == Live && !fails && name in s.tables {
      DeleteLeaves(s, t, token, numRows, outcome);
      assert r.tables == s.tables[name := DeleteEarliest(s.tables[name], numRows)];
      DeleteKeepsPayload(s.tables[name], numRows);
      forall n | n in r.tables ensures AllHavePayload(r.tables[n].rows) {
        if n != name {
          assert r.tables[n] == s.tables[n];
        }
      }
    } else {
      assert r.tables == s.tables || r.tables == map[];
    }
  }

  /** Along any run, every stored row keeps a payload, so reads never meet a row without a blob. */
  lemma {:induction false} RunKeepsPayloads(s: Store, calls: seq<Call>)
    requires StorePayloads(s)
    ensures StorePayloads(Run(s, calls))
    decreases |calls|
  {
    if |calls| > 0 {
      StepKeepsPayloads(s, calls[0]);
      RunKeepsPayloads(Step(s, calls[0]), calls[1..]);
    }
  }

  /** Every table's times increase in table order and none is later than `clock`. */
  predicate StoreIncreasing(s: Store, clock: Time)
  {
    forall name :: name in s.tables ==>
      TimeIncreasing(s.tables[name].rows) && TimesAtMost(s.tables[name].rows, clock)
  }

  /** The clock after a call: an insert reads the clock, nothing else does. */
  function Advance(c: Call, clock: Time): (later: Time)
  {
    if c.InsertCall? then c.now else clock
  }

  /** Each insert of the run reads a time later than every earlier reading. */
  predicate ClockAdvances(calls: seq<Call>, clock: Time)
    decreases |calls|
  {
    |calls| == 0 ||
    ((calls[0].InsertCall? ==> clock < calls[0].now) && ClockAdvances(calls[1..], Advance(calls[0], clock)))
  }

  /** The clock after a sequence of calls. */
  function FinalClock(calls: seq<Call>, clock: Time): (last: Time)
    decreases |calls|
  {
    if |calls| == 0 then clock else FinalClock(calls[1..], Advance(calls[0], clock))
  }

  lemma StepKeepsIncreasing(s: Store, c: Call, clock: Time)
    requires StoreIncreasing(s, clock) && (c.InsertCall? ==> clock < c.now)
    ensures StoreIncreasing(Step(s, c), Advance(c, clock))
  {
    match c
    case InsertCall(t, token, data, now, fails, outcome) =>
      InsertStepIncreasing(s, t, token, data, now, fails, outcome, clock);
    case DeleteCall(t, token, numRows, fails, outcome) =>
      DeleteStepIncreasing(s, t, token, numRows, fails, outcome, clock);
    case CreateCall(t, token, fails, outcome) =>
      CreateStepIncreasing(s, t, token, fails, outcome, clock);
    case ReadCall(t, token, numRows, fault, outcome) =>
      assert Step(s, c).tables == s.tables;
    case OpenCall(outcome) =>
      assert Step(s, c).tables == s.tables;
    case CloseCall =>
      assert Step(s, c).tables == s.tables;
  }

  lemma CreateStepIncreasing(s: Store, t: PersistenceType, token: string, fails: bool, outcome: OpenOutcome,
                             clock: Time)
    requires StoreIncreasing(s, clock)
    ensures StoreIncreasing(CreateTable(s, t, token, fails, outcome), clock)
  {
    var r := CreateTable(s, t, token, fails, outcome);
    var name := TableOf(t, token);
    if s.connection == Live && !fails && name !in s.tables {
      assert r.tables == s.tables[name := EmptyTable];
    } else {
      assert r.tables == s.tables || r.tables == map[];
    }
  }

  lemma DeleteStepIncreasing(s: Store, t: PersistenceType, token: string, numRows: int, fails: bool,
                             outcome: OpenOutcome, clock: Time)
    requires StoreIncreasing(s, clock)
    ensures StoreIncreasing(DeleteRows(s, t, token, numRows, fails, outcome), clock)
  {
    var name := TableOf(t, token);
    if s.connection == Live && !fails && name in s.tables {
      DeleteLeaves(s, t, token, numRows, outcome);
      DeleteKeepsIncreasing(s.tables[name], numRows, clock);
      UpdateKeepsIncreasing(s, name, DeleteEarliest(s.tables[name], numRows), clock);
    } else {
      var r := DeleteRows(s, t, token, numRows, fails, outcome);
      assert r.tables == s.tables || r.tables == map[];
    }
  }

  lemma InsertStepIncreasing(s: Store, t: PersistenceType, token: string, data: Bytes, now: Time, fails: bool,
                             outcome: OpenOutcome, clock: Time)
    requires StoreIncreasing(s, clock) && clock < now
    ensures StoreIncreasing(InsertRow(s, t, token, data, now, fails, outcome), now)
  {
    var name := TableOf(t, token);
    StoreIncreasingLater(s, clock, now);
    if s.connection == Live && !fails && 0 < |data| && name in s.tables {
      InsertAppends(s, t, token, data, now, outcome);
      AppendKeepsIncreasing(s.tables[name], data, clock, now);
      UpdateKeepsIncreasing(s, name, Append(s.tables[name], data, now), now);
    } else {
      var r := InsertRow(s, t, token, data, now, fails, outcome);
      assert r.tables == s.tables || r.tables == map[];
    }
  }

  /** Replacing one table by a table in time order keeps the whole store in time order. */
  lemma UpdateKeepsIncreasing(s: Store, name: TableId, v: Table, clock: Time)
    requires StoreIncreasing(s, clock) && TimeIncreasing(v.rows) && TimesAtMost(v.rows, clock)
    ensures StoreIncreasing(s.(tables := s.tables[name := v]), clock)
  {
    var m := s.tables[name := v];
    forall n | n in m ensures TimeIncreasing(m[n].rows) && TimesAtMost(m[n].rows, clock) {
      if n != name {
        assert m[n] == s.tables[n];
      }
    }
  }

  /** A later clock bounds every time an earlier one bounds. */
  lemma StoreIncreasingLater(s: Store, clock: Time, later: Time)
    requires StoreIncreasing(s, clock) && clock <= later
    ensures StoreIncreasing(s, later)
  {
  }

  /** Along any run with an advancing clock, every table stays in insertion order by time. */
  lemma {:induction false} RunKeepsIncreasing(s: Store, calls: seq<Call>, clock: Time)
    requires StoreIncreasing(s, clock) && ClockAdvances(calls, clock)
    ensures StoreIncreasing(Run(s, calls), FinalClock(calls, clock))
    decreases |calls|
  {
    if |calls| > 0 {
      StepKeepsIncreasing(s, calls[0], clock);
      RunKeepsIncreasing(Step(s, calls[0]), calls[1..], Advance(calls[0], clock));
    }
  }

  /**
   First in, first out along a whole run: starting from any store whose rows hold payloads
   in time order, after any sequence of calls with an advancing clock, a read returns the
   payloads of the oldest rows in insertion order and a delete of the same size removes
   exactly them.
   */
  lemma FifoAfterRun(s: Store, calls: seq<Call>, clock: Time, t: PersistenceType, token: string,
                     numRows: int, outcome: OpenOutcome)
    requires StorePayloads(s) && StoreIncreasing(s, clock) && ClockAdvances(calls, clock)
    requires Run(s, calls).connection == Live && TableOf(t, token) in Run(s, calls).tables
    ensures var r := Run(s, calls);
      var name := TableOf(t, token);
      var rows := r.tables[name].rows;
      var lim := LimitCount(numRows, |rows|);
      && ReadRows(r, t, token, numRows, NoFault, outcome).payloads == Payloads(rows[..lim])
      && DeleteRows(r, t, token, numRows, false, outcome).tables[name].rows == rows[lim..]
  {
    RunKeepsPayloads(s, calls);
    RunKeepsIncreasing(s, calls, clock);
    FifoOnIncreasingTable(Run(s, calls), t, token, numRows, outcome);
  }
}

=== FILE: wrappers.dfy ===
/** Optional values, used for the partial serialization functions and for peeking a queue. */
module Wrappers {

  datatype Option<+T> = None | Some(value: T)
}
